=== FILE: README.md ===
# Landing-site graph animation, update feed and section tracker in Dafny

This project models three pieces of logic of the project's landing site and proves properties of them.

- **The graph animation** (`landing/src/components/graph-animation.tsx`). Eight vertices `a`..`h` take the positions of one named layout ("template") at a time. A kickoff timer moves to the next layout. A random timer then keeps switching to some other layout. A tooltip shows either a card describing the active layout or the description of the hovered or focused vertex. It is clamped to the container.
  - The data model and the node and edge states are in module `Graph`, file `graph.dfy`.
  - The two catalogue-building helpers, `createRadialNodes` and `mergeNodeMeta`, are in `Placement`, file `placement.dfy`.
  - The component itself is in `Animation`, file `animation.dfy`. Its React state is the immutable `View`. Every pointer, focus or timer event is an `Event`. `Step` is the handler followed by the effect that re-runs `ensureDefaultTooltip()` after the render, and `Run` is a sequence of steps.
  - The memoized `activeTemplateName` and `baseTooltip` are stored in the `View` as `name` and `base`. This is what lets the effect's dependency test be written down: it re-runs when `isPointerInside` or the layout name changes. The card is memoized on the name, so two names with the same readable form (`a-b` and `a b`) still re-run it.
  - The JavaScript runtime functions it relies on are in `Text`, file `text.dfy`: `toUpperCase`, a one-character `replace`, `trim`, and the decimal printing of an index.
- **The update feed** (`landing/src/lib/updates.ts`): the updates sorted newest first, and the latest one. It is in `Updates`, file `updates.dfy`.
- **The active-section hook** (`landing/src/hooks/use-active-section.ts`): which section id the sidebar highlights, given the section ids and the IntersectionObserver entries. It is in `ActiveSection`, file `active_section.dfy`.

`Sorting` (`sorting.dfy`) defines `Array.prototype.filter` and the stable `Array.prototype.sort` on a numeric key, as insertion sort, once for all three parts. ECMA-262 has required `sort` to be stable since its 2019 edition. `Options` (`options.dfy`) is `T | undefined` together with `??`.

The main results:
- Every event keeps the component's invariant: `Animation.RunPreservesInv`. Under the invariant:
  - the three copies of the active index agree;
  - the memoized name and card belong to the active layout;
  - the rendered nodes and edges are those of the active layout;
  - a tooltip is either that card or the tooltip of a visible rendered node.
- With at least two layouts of distinct names, a pointer inside the container always has a tooltip: `Animation.RunKeepsAttentive`. `Animation.KickoffOnSingleLayoutHidesTooltip` shows that the two-layout condition is needed.
- `Animation.JsRem` is JavaScript's truncating `%`. `applyTemplate` relies on it to keep the index inside the catalogue for every non-negative index.
- The update feed is a stable permutation sorted newest first.
- The section tracker picks the highest intersecting entry, or otherwise the entry nearest the top, with the earliest entry winning a tie.

## Model

| member | source | states |
|---|---|---|
| Options.Option.GetOr | landing/src/components/graph-animation.tsx:714-716 | `x ?? fallback` is the carried value when there is one and the fallback otherwise |
| Text.UpperChar | landing/src/components/graph-animation.tsx:699 | a lower-case ASCII letter maps to its upper-case letter, at the fixed code-point distance; every other character is unchanged |
| Text.ToUpper | landing/src/components/graph-animation.tsx:699 | the upper-cased string has the same length and upper-cases each character in place |
| Text.ToUpperIdempotent | landing/src/components/graph-animation.tsx:699 | upper-casing twice is upper-casing once |
| Text.IndexOf | landing/src/components/graph-animation.tsx:700 | the first position holding the character, or the length when it does not occur; no earlier position holds it |
| Text.ReplaceFirst | landing/src/components/graph-animation.tsx:700 | `replace` with a one-character string pattern keeps the length, changes nothing when the pattern is absent, and otherwise rewrites only the first occurrence |
| Text.ReplaceFirstKeepsLaterHyphens | landing/src/components/graph-animation.tsx:880 | a second occurrence of the pattern survives the replacement: only the first hyphen of a name becomes a space |
| Text.TrimStart | landing/src/components/graph-animation.tsx:880 | the result is a suffix of the input; everything removed is trimmable and the result does not start with a trimmable character |
| Text.TrimEnd | landing/src/components/graph-animation.tsx:880 | the result is a prefix of the input; everything removed is trimmable and the result does not end with a trimmable character |
| Text.Trim | landing/src/components/graph-animation.tsx:880 | the result is the slice of the input that starts after the leading trimmable characters; everything before and after it is trimmable, it neither starts nor ends with a trimmable character, and it is empty exactly when every character is trimmable |
| Text.TrimOfUnique | landing/src/components/graph-animation.tsx:880 | a non-empty slice framed by trimmable characters in this way is unique, so the trimmed string is determined by these properties |
| Text.DigitChar | landing/src/components/graph-animation.tsx:731 | a digit prints as the character at that distance from `'0'` |
| Text.NatToString | landing/src/components/graph-animation.tsx:731 | an index prints as a non-empty run of decimal digits with no leading zero whose decimal value is the index; it is one digit long exactly below 10 and ends in the index's last digit |
| Sorting.Filter | landing/src/hooks/use-active-section.ts:16 | every element `filter` returns comes from the input and satisfies the predicate, every input element that satisfies it is returned, and the result is no longer than the input |
| Sorting.FilterConcat | landing/src/hooks/use-active-section.ts:16 | filtering a concatenation filters each part and concatenates the results, so the kept elements stay in their input order |
| Sorting.FilterSingle | landing/src/hooks/use-active-section.ts:16 | a one-element list keeps its element exactly when the predicate holds; with the concatenation lemma and the empty list this determines `filter` completely |
| Sorting.Sort | landing/src/lib/updates.ts:6-8 | the sorted copy has the same length and is ordered by the key |
| Sorting.InsertPermutes | landing/src/lib/updates.ts:6-8 | inserting into a sorted list adds exactly that element |
| Sorting.SortPermutes | landing/src/lib/updates.ts:6-8 | the sorted copy is a permutation of the input |
| Sorting.WithKeyIsFilter | landing/src/lib/updates.ts:6-8 | the run of one key that stability is stated on is exactly `filter` by that key, so stability speaks of the same lists the rest of the model filters |
| Sorting.SortIsStable | landing/src/lib/updates.ts:6-8 | elements with equal keys keep their relative order |
| Sorting.SortHeadIsLeast | landing/src/hooks/use-active-section.ts:57-62 | the head of a sorted non-empty list is an element of the input with the least key |
| Sorting.SortHeadIsFirstMinimal | landing/src/hooks/use-active-section.ts:48-53 | the head of the sorted list is the earliest input element with the least key |
| Sorting.FilterKeepsFirstMinimal | landing/src/hooks/use-active-section.ts:48-50 | the earliest least element of the filtered list is the earliest least kept element of the input |
| Sorting.FilterHead | landing/src/hooks/use-active-section.ts:16-19 | the head of a filtered list is the first input element that passes the filter, and every element before it fails |
| Sorting.FilterAllKept | landing/src/components/graph-animation.tsx:965-971 | a filter that every element passes returns the list unchanged |
| Updates.ProjectUpdates | landing/src/lib/updates.ts:6-12 | the list of updates is a permutation of the data, with dates non-increasing |
| Updates.ProjectUpdatesKeepTies | landing/src/lib/updates.ts:6-8 | updates that share a date keep their order from the data |
| Updates.StableOnKey | landing/src/lib/updates.ts:6-8 | sorting newest first keeps the order of the updates on each date |
| Updates.LatestIsFirstNewest | landing/src/lib/updates.ts:14-16 | the head of the sorted list is the earliest update among those with the latest date |
| Updates.LatestProjectUpdate | landing/src/lib/updates.ts:14-16 | the latest update is `undefined` exactly for empty data; otherwise it is the earliest update with the latest date |
| ActiveSection.ObservedIds | landing/src/hooks/use-active-section.ts:16 | the observed ids are the non-empty section ids, none missing |
| ActiveSection.ObservedIdsUnfold | landing/src/hooks/use-active-section.ts:16 | the first section id is observed exactly when it is non-empty, ahead of the observed rest: the observed ids are the non-empty ids, each occurrence once, in order |
| ActiveSection.ObservedIdsConcat | landing/src/hooks/use-active-section.ts:16 | observing two lists in turn is observing their concatenation |
| ActiveSection.ObservedIdsOfCleanList | landing/src/hooks/use-active-section.ts:16 | a list without empty ids is observed unchanged |
| ActiveSection.FirstObservedIsFirstNonEmpty | landing/src/hooks/use-active-section.ts:16-19 | the first observed id is the first non-empty section id |
| ActiveSection.FallbackId | landing/src/hooks/use-active-section.ts:19-20 | the fallback is null exactly when every id is empty; otherwise it is the first non-empty id |
| ActiveSection.Reconcile | landing/src/hooks/use-active-section.ts:22-29 | the active id is kept while it is still observed and otherwise falls back; it is null exactly when nothing is observed; the result is always observed |
| ActiveSection.ReconcileIdempotent | landing/src/hooks/use-active-section.ts:22-29 | reconciling twice against the same ids is reconciling once |
| ActiveSection.ObserverSetup | landing/src/hooks/use-active-section.ts:31-44 | the active id is cleared when nothing is observed, the observer is missing or no element is found; otherwise exactly the observed ids with elements are observed |
| ActiveSection.IntersectingChoice | landing/src/hooks/use-active-section.ts:48-53 | with some intersecting entry, the head of the sorted intersecting entries is the earliest intersecting entry with the least top |
| ActiveSection.NoneIntersecting | landing/src/hooks/use-active-section.ts:48-52 | with no intersecting entry, nothing survives the filter |
| ActiveSection.OnEntries | landing/src/hooks/use-active-section.ts:47-64 | the earliest highest intersecting entry wins; otherwise the earliest entry nearest the top wins; an empty batch changes nothing |
| Graph.RosterIds | landing/src/components/graph-animation.tsx:67-76 | the roster ids are exactly `a`..`h` |
| Graph.RosterWellFormed | landing/src/components/graph-animation.tsx:67-76 | the roster has eight entries with distinct ids and positive radii |
| Graph.LayoutName | landing/src/components/graph-animation.tsx:700 | the layout name has its first hyphen turned into a space and is otherwise unchanged |
| Graph.MaterializeNode | landing/src/components/graph-animation.tsx:697-726 | a vertex missing from the template is hidden at the centre with the base label and the hidden description; a placed vertex takes the template's position with the defaults for visibility, scale, label and description |
| Graph.CreateNodeState | landing/src/components/graph-animation.tsx:696-727 | one node per roster entry, in roster order, whatever the template holds |
| Graph.EdgeIdsDistinct | landing/src/components/graph-animation.tsx:731 | two edge positions of one template never get the same id |
| Graph.CreateEdgeState | landing/src/components/graph-animation.tsx:729-736 | one edge per template edge, in order, with its endpoints, the default weight 1, undashed by default, the id `<template name>-edge-<position>`, and pairwise distinct ids |
| Graph.NodeLookup | landing/src/components/graph-animation.tsx:866-872 | the lookup is keyed by exactly the node ids; each node is stored under its own id, and the last node with an id wins |
| Graph.LookupFindsRosterNode | landing/src/components/graph-animation.tsx:866-872 | looking up a roster id among the created nodes finds that vertex's node |
| Graph.VisibleEdges | landing/src/components/graph-animation.tsx:965-971 | the drawn edges are exactly the edges whose two endpoints are found and visible |
| Graph.VisibleEdgesUnfold | landing/src/components/graph-animation.tsx:965-971 | the first edge is drawn exactly when both endpoints are found and visible, ahead of the drawn rest: the drawn edges keep their order and multiplicity |
| Graph.LookupVisibility | landing/src/components/graph-animation.tsx:702-723 | the created nodes are keyed by the roster ids; a roster vertex is visible exactly when the template places it without hiding it |
| Graph.DrawnIffEndpointsShown | landing/src/components/graph-animation.tsx:965-971 | an edge is drawn exactly when both endpoints are roster vertices that the template shows |
| Graph.AllEdgesDrawn | landing/src/components/graph-animation.tsx:965-971 | a layout that shows the whole roster draws every edge, in order |
| Graph.EveryEdgeDrawn | landing/src/components/graph-animation.tsx:965-971 | in such a layout each created edge passes the drawing filter |
| Placement.NearestHundredthUnique | landing/src/components/graph-animation.tsx:93-94 | a value has at most one nearest hundredth when ties go away from zero, so the rounding below is fully determined |
| Placement.Round2 | landing/src/components/graph-animation.tsx:93-94 | `+v.toFixed(2)` is the whole number of hundredths nearest to `v`, a tie going away from zero, and keeps the sign of a non-negative value |
| Placement.HundredthsNegate | landing/src/components/graph-animation.tsx:93-94 | the negation of a whole number of hundredths is one too, which is how a negative value is rounded |
| Placement.RoundUp2 | landing/src/components/graph-animation.tsx:93-94 | the result is a whole number of hundredths nearest to the input, the larger one on a tie |
| Placement.RadialNodes | landing/src/components/graph-animation.tsx:81-99 | exactly the given ids are placed, with no optional field set; each id sits at the radial point of its last occurrence |
| Placement.RadialPoint | landing/src/components/graph-animation.tsx:91-95 | the `i`-th of `n` ids sits at the angle `rotation + 2i/n` (in units of pi): each coordinate is the centre plus the radius times the cosine or sine, rounded to the nearest hundredth; no optional field is set |
| Placement.RadialPrefix | landing/src/components/graph-animation.tsx:88-96 | after the first `k` ids the record's keys are exactly those ids |
| Placement.RadialPrefixPlain | landing/src/components/graph-animation.tsx:90-96 | every placement written by the loop is a bare position |
| Placement.RadialPrefixPlaces | landing/src/components/graph-animation.tsx:90-96 | after the first `k` ids each id holds the point of its last occurrence so far |
| Placement.MergeNodeMeta | landing/src/components/graph-animation.tsx:101-113 | the keys are those of the nodes and the metadata; nodes without metadata are kept; each metadata field that is present overrides the node, or the centred default, field by field |
| Animation.JsRem | landing/src/components/graph-animation.tsx:813 | JavaScript's `%` by a positive divisor lies in `[0, n)` for a non-negative dividend and in `(-n, 0]` for a negative one, is odd in the dividend, and leaves `[0, n)` unchanged |
| Animation.JsRemMatchesMod | landing/src/components/graph-animation.tsx:813 | the JavaScript remainder equals the Euclidean one for a non-negative dividend and is that less the divisor, unless zero, for a negative one |
| Animation.ModUnique | landing/src/components/graph-animation.tsx:813 | a remainder in `[0, n)` of a division identity is the Euclidean remainder |
| Animation.EuclidOfNegation | landing/src/components/graph-animation.tsx:813 | the Euclidean remainder of `-a` is `n` less that of `a`, or zero |
| Animation.TemplateAt | landing/src/components/graph-animation.tsx:745-746 | an index inside the catalogue selects that layout; any other index selects the first |
| Animation.NameAt | landing/src/components/graph-animation.tsx:874-877 | the active name is the indexed layout's name, or empty outside the catalogue |
| Animation.TooltipPosition | landing/src/components/graph-animation.tsx:794-810 | without a container the tooltip sits at the pointer offset by (14, 18); with one it stays at least 12 in, within 220 by 120 of the far edges when there is room, and is unchanged when already in range |
| Animation.TooltipPositionIsClamp | landing/src/components/graph-animation.tsx:806-809 | each coordinate is the offset position clamped to the interval from 12 to the larger of 12 and the extent less the reserve |
| Animation.Clamp | landing/src/components/graph-animation.tsx:807-808 | the clamp lies in the interval, fixes points of the interval, and maps points outside it to the nearer end |
| Animation.ReadableName | landing/src/components/graph-animation.tsx:879-880 | the readable name is the trimmed slice of the name with its first hyphen spaced: it is no longer than the name, all that is cut off is trimmable, it neither starts nor ends with blank space, and it is empty exactly when the spaced name is all blank |
| Animation.BaseTooltip | landing/src/components/graph-animation.tsx:879-890 | the base tooltip is a card labelled "<readable> layout" with the description naming the readable layout, or labelled "Graph animation" with the generic description when the readable name is empty |
| Animation.CardLabelInjective | landing/src/components/graph-animation.tsx:881 | two readable names get the same label exactly when they are equal |
| Animation.BaseLabelIdentifiesLayout | landing/src/components/graph-animation.tsx:879-890 | two layouts get the same card label exactly when their readable names agree |
| Animation.NodeTooltip | landing/src/components/graph-animation.tsx:1054-1058 | a node's tooltip is a node-sourced tooltip with the node's label and description |
| Animation.EnsureDefaultTooltip | landing/src/components/graph-animation.tsx:892-909 | some tooltip is always shown afterwards; a node tooltip survives an unforced call; the card replaces anything else |
| Animation.EnsureDefaultTooltipIdempotent | landing/src/components/graph-animation.tsx:892-909 | ensuring the default twice is ensuring it once, and after a forced call any call leaves the card |
| Animation.Mount | landing/src/components/graph-animation.tsx:743-763 | the first render takes the persisted index as active, referenced and persisted index, with the nodes and edges of the indexed layout (the first one outside the catalogue), its name (empty outside the catalogue) and that name's card, no tooltip, and the pointer outside |
| Animation.ApplyTemplate | landing/src/components/graph-animation.tsx:812-825 | the active index is the JavaScript remainder of the index; it is inside the catalogue for a non-negative index and equal to an index already inside; the layout is applied and the tooltip cleared |
| Animation.KickoffSwitch | landing/src/components/graph-animation.tsx:827-836 | the kickoff moves from a referenced index to the next one, wrapping to 0; with two or more layouts it always changes layout |
| Animation.NextIndex | landing/src/components/graph-animation.tsx:829 | `(i + 1) % n` for an index in `[0, n)` is the next index, wrapping to 0 |
| Animation.RandomPick | landing/src/components/graph-animation.tsx:844-850 | the pick is a draw inside the catalogue; with two or more layouts it is the first draw different from the referenced index |
| Animation.RandomRotation | landing/src/components/graph-animation.tsx:841-857 | the random rotation applies a layout inside the catalogue, different from the referenced one when there are two or more |
| Animation.TrackPointer | landing/src/components/graph-animation.tsx:765-775 | the pointer becomes the client point relative to the container, and nothing changes when the container is not measured |
| Animation.ContainerEnterHandler | landing/src/components/graph-animation.tsx:922-926 | entering marks the pointer inside, moves the pointer to the client point relative to the measured container, and shows a tooltip, the unforced default; nothing else changes |
| Animation.ContainerMoveHandler | landing/src/components/graph-animation.tsx:927-930 | moving tracks the pointer relative to the measured container and shows the unforced default; nothing else changes |
| Animation.ContainerLeaveHandler | landing/src/components/graph-animation.tsx:931-934 | leaving marks the pointer outside and drops the tooltip; nothing else changes |
| Animation.Dismiss | landing/src/components/graph-animation.tsx:942-948 | a pointer leave or blur inside the container shows the card; outside it drops the tooltip; nothing else changes |
| Animation.NodeEnterHandler | landing/src/components/graph-animation.tsx:1049-1059 | entering a hidden node does nothing; entering a visible node tracks the pointer and shows the node's tooltip; nothing else changes |
| Animation.NodeMoveHandler | landing/src/components/graph-animation.tsx:1060-1065 | moving over a visible node tracks the pointer and changes nothing else; over a hidden node it changes nothing |
| Animation.NodeFocusHandler | landing/src/components/graph-animation.tsx:1073-1079 | focusing a hidden node, or any node while the container is not measured, does nothing; otherwise the pointer moves to the node's scaled position and the node's tooltip shows; nothing else changes |
| Animation.Settle | landing/src/components/graph-animation.tsx:911-916 | the effect re-ensures the unforced default exactly when the pointer is inside and either the inside flag or the layout name changed, and changes nothing else |
| Animation.Handle | landing/src/components/graph-animation.tsx:919-1086 | every event reaches the handler the component attaches to its element, and no event but a timer changes the layout, its indices or its memoized name and card |
| Animation.HandleRoutesPointer | landing/src/components/graph-animation.tsx:941-1086 | the drawing's pointer move is the pointer tracking, and the drawing's pointer leave and a node's pointer leave and blur all reach the same dismissal |
| Animation.HandleTimerApplies | landing/src/components/graph-animation.tsx:827-857 | the kickoff and the random rotation both apply a layout: indices moved together, nodes, edges, name and card rebuilt, tooltip cleared, pointer kept |
| Animation.Step | landing/src/components/graph-animation.tsx:911-916 | an event is its handler followed by the effect, which changes nothing but the tooltip |
| Animation.StepShowsTooltipOnChange | landing/src/components/graph-animation.tsx:911-916 | after a render that finds the pointer newly inside, or inside under a new layout name, a tooltip is up, whatever the handler did |
| Animation.Run | landing/src/components/graph-animation.tsx:742-1086 | a sequence of events applied one step at a time; without a timer firing among them, the layout, its indices and its memoized name and card stay as they were |
| Animation.RunAppend | landing/src/components/graph-animation.tsx:742-1086 | a feasible run of `a + b` splits into a feasible run of `a` followed by one of `b` from where `a` ends |
| Animation.MountEstablishesInv | landing/src/components/graph-animation.tsx:743-763 | the first render satisfies the invariant and renders the whole roster |
| Animation.EnsureKeepsCurrent | landing/src/components/graph-animation.tsx:892-909 | ensuring the default keeps a current tooltip current |
| Animation.NodeTooltipSurvives | landing/src/components/graph-animation.tsx:1054-1058 | with the same nodes, card and tooltip, a current tooltip stays current |
| Animation.HandlePreservesInv | landing/src/components/graph-animation.tsx:919-1086 | every handler keeps the invariant |
| Animation.TrackPointerKeepsInv | landing/src/components/graph-animation.tsx:765-775 | tracking the pointer keeps the invariant |
| Animation.ContainerEnterKeepsInv | landing/src/components/graph-animation.tsx:922-926 | entering the container keeps the invariant |
| Animation.ContainerMoveKeepsInv | landing/src/components/graph-animation.tsx:927-930 | moving in the container keeps the invariant |
| Animation.DismissKeepsInv | landing/src/components/graph-animation.tsx:1066-1072 | leaving or blurring keeps the invariant |
| Animation.NodeEnterKeepsInv | landing/src/components/graph-animation.tsx:1049-1059 | entering a node keeps the invariant: its tooltip is that of a visible rendered node |
| Animation.NodeMoveKeepsInv | landing/src/components/graph-animation.tsx:1060-1065 | moving over a node keeps the invariant |
| Animation.NodeFocusKeepsInv | landing/src/components/graph-animation.tsx:1073-1079 | focusing a node keeps the invariant |
| Animation.AppliedKeepsInv | landing/src/components/graph-animation.tsx:812-821 | a freshly applied layout satisfies the invariant |
| Animation.StepPreservesInv | landing/src/components/graph-animation.tsx:911-916 | a handler followed by the effect keeps the invariant |
| Animation.RunPreservesInv | landing/src/components/graph-animation.tsx:742-1086 | every state reached by a sequence of events keeps the invariant |
| Animation.HiddenNodeInert | landing/src/components/graph-animation.tsx:1050-1052 | entering, moving over or focusing a hidden node leaves the whole state unchanged |
| Animation.VisibleNodeShowsTooltip | landing/src/components/graph-animation.tsx:1053-1058 | entering a visible node, or focusing it with the container measured, shows that node's tooltip and keeps the layout |
| Animation.DismissShowsCardOrNothing | landing/src/components/graph-animation.tsx:1066-1086 | leaving or blurring a node, or leaving the drawing, shows the active layout's card while inside and nothing while outside |
| Animation.StepKeepsAttentive | landing/src/components/graph-animation.tsx:911-916 | with two or more layouts of distinct names, every step keeps the active index inside the catalogue and some tooltip up while the pointer is inside |
| Animation.HandlerKeepsAttentive | landing/src/components/graph-animation.tsx:919-1086 | a handler that does not switch layouts keeps the active index and a tooltip while inside |
| Animation.SwitchKeepsAttentive | landing/src/components/graph-animation.tsx:874-916 | a switch to another layout of a distinctly named catalogue has its card restored by the effect while inside |
| Animation.SameNameSwitchHidesTooltip | landing/src/components/graph-animation.tsx:911-916 | a switch to a layout of the same name leaves no tooltip while the pointer is inside, because the effect does not re-run |
| Animation.KickoffOnSingleLayoutHidesTooltip | landing/src/components/graph-animation.tsx:827-836 | with a single layout the kickoff leaves a pointer inside the container without a tooltip |
| Animation.RunKeepsAttentive | landing/src/components/graph-animation.tsx:742-1086 | with two or more distinctly named layouts, every reachable state keeps the invariant and shows a tooltip while the pointer is inside |
| Animation.MountAttentive | landing/src/components/graph-animation.tsx:743-763 | the first render at an index inside the catalogue starts with the active index inside it |

## Left out

- The concrete catalogue of nine layouts (`graph-animation.tsx`, lines 115-694) is a parameter `cat` of the `Animation` functions. The properties are stated for any non-empty catalogue, under `DistinctNames` where that matters. Three of the nine layouts (ring, star and wheel) are placed by `createRadialNodes`, with cosine, sine and `toFixed` of binary doubles, which the model does not evaluate. The other six give literal positions.
- Trigonometry is the function parameter `circle` of `Placement.RadialNodes`.
- Placement.Round2: rounds the exact real value. `toFixed` rounds the nearest binary double, which can differ on ties.
- Placement.RadialPoint: its coordinates are stated on exact reals, with the angle as the multiple `2i/n` of pi passed to `circle`; the binary-double effects of `Math.PI * 2 / n` are not modelled.
- Floating point: coordinates, radii, weights and the tooltip clamp use unbounded `real`, not IEEE doubles.
- `Math.random` and the timer delays are left out. A random rotation is the event `RandomTick(draws)`, which carries the successive draws of `Math.floor(Math.random() * n)`. The rejection loop is modelled only for draw sequences that eventually differ from the current index (`UsableDraws`). A sequence that never does would make the source loop forever.
- Timer scheduling and cancellation (`setTimeout`, `clearTimeout`, unmount) are left out. `Kickoff` and `RandomTick` are events that can arrive in any order. The model therefore also admits a kickoff firing more than once, which the source prevents.
- DOM measurement is carried by the events: `getBoundingClientRect` is an `Option<Rect>`, and a missing container is `None`. `TooltipPosition` takes the container's rectangle as its argument.
- Event bubbling: a node's pointer event also reaches the drawing and the container. The model treats each handler call as a separate event, and a run is any sequence of them.
- React's batching of state updates inside one handler is not modelled. Each handler's updates are applied in order, and the effect runs once after the handler.
- Rendering: the motion animations, SVG attributes, stroke widths and CSS classes are left out. Only which edges are drawn, and from which nodes, is modelled.
- Text.UpperChar: upper-cases ASCII letters only. The roster ids are ASCII, and full Unicode case mapping is outside the model.
- Text.NatToString: prints non-negative integers only. Edge indices are array positions.
- The `label` field is named `labelText` throughout, because `label` is a reserved word in Dafny.
- `Partial` records: a field explicitly set to `undefined` overrides in a spread, where an absent field does not. The model has only absent fields.
- Updates: the ISO date strings and `new Date(...).getTime()` are replaced by an integer timestamp per update. The JSON data file is not part of this model.
- The IntersectionObserver's `rootMargin` and `threshold`, element lookup, `observe` and `disconnect` are left out. Element lookup becomes the set of ids that have an element, and the observer's availability becomes a flag. A callback batch is a sequence of entries whose `top` is a whole number.
- The site's other pages, the sidebar and the data files are not part of this model.

=== FILE: active_section.dfy ===
/** The selection rule of `useActiveSection` (landing/src/hooks/use-active-section.ts): which
    page section the sidebar highlights. The IntersectionObserver is outside the model; what it
    delivers is a batch of entries, each an element id, whether it intersects the root, and the
    top of its bounding box in whole pixels. */
module ActiveSection {
  import opened Options
  import opened Sorting

  /** `Boolean(id)` on a string: only the empty string is falsy. */
  predicate NonEmpty(id: string) {
    id != ""
  }

  /** `sectionIds.filter(Boolean)`. */
  function ObservedIds(sectionIds: seq<string>): (r: seq<string>)
    ensures |r| <= |sectionIds|
    ensures forall i :: 0 <= i < |r| ==> r[i] != "" && r[i] in sectionIds
    ensures forall i :: 0 <= i < |sectionIds| && sectionIds[i] != "" ==> sectionIds[i] in r
  {
    Filter(sectionIds, NonEmpty)
  }

  /** Observing a list front to back: the first id is kept exactly when it is non-empty, ahead of
      the observed rest. With `ObservedIds([]) == []` this fixes the observed ids completely: the
      non-empty ids, each occurrence once, in their original order. */
  lemma ObservedIdsUnfold(sectionIds: seq<string>)
    requires |sectionIds| > 0
    ensures ObservedIds(sectionIds)
            == (if sectionIds[0] != "" then [sectionIds[0]] else []) + ObservedIds(sectionIds[1..])
  {
    assert sectionIds == [sectionIds[0]] + sectionIds[1..];
    FilterConcat([sectionIds[0]], sectionIds[1..], NonEmpty);
    FilterSingle(sectionIds[0], NonEmpty);
  }

  /** Observing two lists one after the other is observing their concatenation. */
  lemma ObservedIdsConcat(a: seq<string>, b: seq<string>)
    ensures ObservedIds(a + b) == ObservedIds(a) + ObservedIds(b)
  {
    FilterConcat(a, b, NonEmpty);
  }

  /** A list without empty ids is observed as it is; in particular filtering twice is filtering once. */
  lemma {:induction false} ObservedIdsOfCleanList(sectionIds: seq<string>)
    requires forall i :: 0 <= i < |sectionIds| ==> sectionIds[i] != ""
    ensures ObservedIds(sectionIds) == sectionIds
  {
    if |sectionIds| > 0 {
      ObservedIdsOfCleanList(sectionIds[..|sectionIds| - 1]);
      assert sectionIds == sectionIds[..|sectionIds| - 1] + [sectionIds[|sectionIds| - 1]];
    }
  }

  lemma FirstObservedIsFirstNonEmpty(sectionIds: seq<string>)
    requires |ObservedIds(sectionIds)| > 0
    ensures exists i :: 0 <= i < |sectionIds| && sectionIds[i] == ObservedIds(sectionIds)[0]
                        && forall j :: 0 <= j < i ==> sectionIds[j] == ""
  {
    var i := FilterHead(sectionIds, NonEmpty);
  }

  /** `observedIds[0] ?? null`: the first non-empty id, which is also the initial active id. */
  function FallbackId(sectionIds: seq<string>): (r: Option<string>)
    ensures r.None? <==> forall i :: 0 <= i < |sectionIds| ==> sectionIds[i] == ""
    ensures r.Some? ==> exists i :: 0 <= i < |sectionIds| && sectionIds[i] == r.value && r.value != ""
                                    && forall j :: 0 <= j < i ==> sectionIds[j] == ""
  {
    var observed := ObservedIds(sectionIds);
    if |observed| == 0 then
      None
    else
      FirstObservedIsFirstNonEmpty(sectionIds);
      Some(observed[0])
  }

  /** The effect run when the id list changes: keep the current id while it is still observed,
      otherwise fall back to the first observed id, or to null when nothing is observed. */
  function Reconcile(current: Option<string>, sectionIds: seq<string>): (r: Option<string>)
    ensures r.None? <==> |ObservedIds(sectionIds)| == 0
    ensures r.Some? ==> r.value in ObservedIds(sectionIds)
    ensures current.Some? && current.value in ObservedIds(sectionIds) ==> r == current
    ensures (current.None? || current.value !in ObservedIds(sectionIds)) ==> r == FallbackId(sectionIds)
  {
    var fallback := FallbackId(sectionIds);
    if fallback.None? then None
    else if current.Some? && current.value != "" && current.value in ObservedIds(sectionIds) then current
    else fallback
  }

  /** Reconciling twice against the same list changes nothing more. */
  lemma ReconcileIdempotent(current: Option<string>, sectionIds: seq<string>)
    ensures Reconcile(Reconcile(current, sectionIds), sectionIds) == Reconcile(current, sectionIds)
  {
  }

  /** What the observer effect does before any entry arrives. */
  datatype Setup =
    | Cleared                        // the active id is set to null and nothing is observed
    | Observing(targets: seq<string>) // the ids whose elements are observed

  /** `present` is the set of ids for which `document.getElementById` finds an element;
      `observerAvailable` is whether `IntersectionObserver` is defined. */
  function ObserverSetup(sectionIds: seq<string>, observerAvailable: bool, present: set<string>): (r: Setup)
    ensures r.Cleared? <==> (|ObservedIds(sectionIds)| == 0 || !observerAvailable
                             || forall id :: id in ObservedIds(sectionIds) ==> id !in present)
    ensures r.Observing? ==> forall i :: 0 <= i < |r.targets| ==>
                               r.targets[i] in present && r.targets[i] in ObservedIds(sectionIds)
    ensures r.Observing? ==> forall id :: id in ObservedIds(sectionIds) && id in present ==> id in r.targets
  {
    var observed := ObservedIds(sectionIds);
    if |observed| == 0 || !observerAvailable then Cleared
    else
      var found := Filter(observed, id => id in present);
      if |found| == 0 then
        assert forall id :: id in observed ==> id !in present by {
          forall id | id in observed
            ensures id !in present
          {
            var i :| 0 <= i < |observed| && observed[i] == id;
          }
        }
        Cleared
      else
        assert found[0] in observed && found[0] in present;
        Observing(found)
  }

  /** One IntersectionObserver entry: the target's id, `isIntersecting` and
      `boundingClientRect.top`. */
  datatype Entry = Entry(id: string, isIntersecting: bool, top: int)

  predicate Intersects(e: Entry) {
    e.isIntersecting
  }

  function Top(e: Entry): int {
    e.top
  }

  /** `Math.abs(boundingClientRect.top)`. */
  function DistanceFromTop(e: Entry): int {
    if e.top < 0 then -e.top else e.top
  }

  /** With some entry intersecting, the head of the sorted intersecting entries is the first
      intersecting entry with the least top. */
  lemma IntersectingChoice(entries: seq<Entry>)
    requires exists i :: 0 <= i < |entries| && entries[i].isIntersecting
    ensures |Sort(Filter(entries, Intersects), Top)| > 0
    ensures exists i :: FirstMinimalAt(entries, Intersects, Top, i)
                        && Sort(Filter(entries, Intersects), Top)[0] == entries[i]
  {
    var f := Filter(entries, Intersects);
    var k :| 0 <= k < |entries| && entries[k].isIntersecting;
    assert entries[k] in f;
    SortHeadIsFirstMinimal(f, Top);
    var p :| FirstMinimalAt(f, All, Top, p) && Sort(f, Top)[0] == f[p];
    FilterKeepsFirstMinimal(entries, Intersects, Top, p);
  }

  /** With no entry intersecting, nothing survives the filter. */
  lemma NoneIntersecting(entries: seq<Entry>)
    requires forall i :: 0 <= i < |entries| ==> !entries[i].isIntersecting
    ensures |Filter(entries, Intersects)| == 0
  {
  }

  /** The observer callback: among the intersecting entries the one highest on the page (the
      least `top`, the earliest on a tie since the sort is stable) becomes active; when none
      intersects, the entry whose top is nearest the viewport top; an empty batch changes nothing. */
  function OnEntries(entries: seq<Entry>, active: Option<string>): (r: Option<string>)
    ensures (exists i :: 0 <= i < |entries| && entries[i].isIntersecting) ==>
              exists i :: FirstMinimalAt(entries, Intersects, Top, i) && r == Some(entries[i].id)
    ensures (forall i :: 0 <= i < |entries| ==> !entries[i].isIntersecting) && |entries| > 0 ==>
              exists i :: FirstMinimalAt(entries, All, DistanceFromTop, i) && r == Some(entries[i].id)
    ensures |entries| == 0 ==> r == active
  {
    var intersecting := Sort(Filter(entries, Intersects), Top);
    if exists i :: 0 <= i < |entries| && entries[i].isIntersecting then
      IntersectingChoice(entries);
      Some(intersecting[0].id)
    else
      NoneIntersecting(entries);
      var proximitySorted := Sort(entries, DistanceFromTop);
      if |proximitySorted| > 0 then
        SortHeadIsFirstMinimal(entries, DistanceFromTop);
        Some(proximitySorted[0].id)
      else
        active
  }
}

=== FILE: animation.dfy ===
/** The controller of the graph animation (landing/src/components/graph-animation.tsx): the
    active layout, the tooltip state machine, and the tooltip position clamp. The component's
    React state is one immutable `View`; each UI event or timer firing is one `Event`, and
    `Step` is the state after its handler and the effect that React runs on the next render.
    Randomness and DOM measurement are inputs carried by the events. */
module Animation {
  import opened Options
  import opened Text
  import opened Graph

  datatype Point = Point(x: real, y: real)

  /** A `getBoundingClientRect()` measurement of the container. */
  datatype Rect = Rect(left: real, top: real, width: real, height: real)

  datatype TooltipSource = CardSource | NodeSource

  /** `TooltipContent`. */
  datatype Tooltip = Tooltip(labelText: string, description: string, source: TooltipSource)

  /** The component's state: the active layout index, its copy in `templateIndexRef`, the
      module-level persisted index, the memoized layout name and card, the rendered nodes and
      edges, the hovered tooltip, the pointer position within the container, and whether the
      pointer is inside it. */
  datatype View = View(
    active: int,
    indexRef: int,
    persisted: int,
    name: string,
    base: Tooltip,
    nodes: seq<NodeState>,
    edges: seq<EdgeState>,
    tooltip: Option<Tooltip>,
    pointer: Point,
    inside: bool)

  /** The UI events and timer firings the component reacts to. A DOM event that bubbles fires
      the handlers of its target and of each ancestor, each of which is one event here. */
  datatype Event =
    | ContainerEnter(client: Point, rect: Option<Rect>)
    | ContainerMove(client: Point, rect: Option<Rect>)
    | ContainerLeave
    | SvgMove(client: Point, rect: Option<Rect>)
    | SvgLeave
    | NodeEnter(node: nat, client: Point, rect: Option<Rect>)
    | NodeMove(node: nat, client: Point, rect: Option<Rect>)
    | NodeLeave(node: nat)
    | NodeFocus(node: nat, rect: Option<Rect>)
    | NodeBlur(node: nat)
    | Kickoff
    | RandomTick(draws: seq<int>)

  /** The layout catalogue: never empty. */
  predicate ValidCatalogue(cat: seq<GraphTemplate>) {
    |cat| > 0
  }

  /** JavaScript's `%` on integers: the remainder takes the sign of the dividend. */
  function JsRem(a: int, n: int): (r: int)
    requires n > 0
    ensures a >= 0 ==> 0 <= r < n
    ensures a < 0 ==> -n < r <= 0 && r == -JsRem(-a, n)
    ensures 0 <= a < n ==> r == a
    decreases if a >= 0 then a else 1 - a
  {
    if a < 0 then -JsRem(-a, n)
    else if a < n then a
    else JsRem(a - n, n)
  }

  /** For a non-negative dividend the JavaScript remainder is Dafny's; for a negative one it is
      Dafny's less the divisor, unless it is zero. */
  lemma {:induction false} JsRemMatchesMod(a: int, n: int)
    requires n > 0
    ensures a >= 0 ==> JsRem(a, n) == a % n
    ensures a < 0 ==> JsRem(a, n) == (if a % n == 0 then 0 else a % n - n)
    decreases if a >= 0 then a else 1 - a
  {
    if a < 0 {
      JsRemMatchesMod(-a, n);
      EuclidOfNegation(a, n);
    } else if a < n {
      ModUnique(a, n, 0, a);
    } else {
      JsRemMatchesMod(a - n, n);
      var q := (a - n) / n;
      assert a - n == q * n + (a - n) % n;
      assert a == (q + 1) * n + (a - n) % n;
      ModUnique(a, n, q + 1, (a - n) % n);
    }
  }

  lemma {:induction false} MulAtLeast(d: int, n: int)
    requires d >= 1 && n > 0
    ensures d * n >= n
    decreases d
  {
    if d > 1 {
      MulAtLeast(d - 1, n);
      assert d * n == (d - 1) * n + n;
    }
  }

  /** Euclidean division has one remainder. */
  lemma ModUnique(a: int, n: int, q: int, m: int)
    requires n > 0 && 0 <= m < n && a == q * n + m
    ensures a % n == m
  {
    var q', m' := a / n, a % n;
    var d := q' - q;
    assert d * n == m - m' by {
      assert q' * n + m' == q * n + m;
      assert d * n == q' * n - q * n;
    }
    if d >= 1 {
      MulAtLeast(d, n);
    } else if d <= -1 {
      MulAtLeast(-d, n);
    }
  }

  /** The remainder of `-a` from that of `a`. */
  lemma EuclidOfNegation(a: int, n: int)
    requires n > 0
    ensures (-a) % n == (if a % n == 0 then 0 else n - a % n)
  {
    var q, m := a / n, a % n;
    if m == 0 {
      ModUnique(-a, n, -q, 0);
    } else {
      ModUnique(-a, n, -q - 1, n - m);
    }
  }

  /** `graphTemplates[i] ?? graphTemplates[0]`. */
  function TemplateAt(cat: seq<GraphTemplate>, i: int): (r: GraphTemplate)
    requires ValidCatalogue(cat)
    ensures 0 <= i < |cat| ==> r == cat[i]
    ensures !(0 <= i < |cat|) ==> r == cat[0]
  {
    if 0 <= i < |cat| then cat[i] else cat[0]
  }

  /** `graphTemplates[i]?.name ?? ""`. */
  function NameAt(cat: seq<GraphTemplate>, i: int): (r: string)
    ensures 0 <= i < |cat| ==> r == cat[i].name
    ensures !(0 <= i < |cat|) ==> r == ""
  {
    if 0 <= i < |cat| then cat[i].name else ""
  }

  // ---------------------------------------------------------------- tooltip position

  /** The tooltip's `left`/`top`: the pointer offset by (14, 18), kept at least 12 from the
      container's top-left corner and, when that leaves room, 220 by 120 from its far edges.
      Without a container the offset position is used as it is. */
  function TooltipPosition(p: Point, container: Option<Rect>): (r: Point)
    ensures container.None? ==> r == Point(p.x + 14.0, p.y + 18.0)
    ensures container.Some? ==>
              var w := container.value.width;
              var h := container.value.height;
              && 12.0 <= r.x && (r.x <= w - 220.0 || r.x == 12.0)
              && 12.0 <= r.y && (r.y <= h - 120.0 || r.y == 12.0)
              && (12.0 <= p.x + 14.0 <= w - 220.0 ==> r.x == p.x + 14.0)
              && (12.0 <= p.y + 18.0 <= h - 120.0 ==> r.y == p.y + 18.0)
  {
    if container.None? then Point(p.x + 14.0, p.y + 18.0)
    else
      var c := container.value;
      Point(Min(Max(p.x + 14.0, 12.0), Max(c.width - 220.0, 12.0)),
            Min(Max(p.y + 18.0, 12.0), Max(c.height - 120.0, 12.0)))
  }

  function Min(a: real, b: real): real { if a <= b then a else b }

  function Max(a: real, b: real): real { if a >= b then a else b }

  /** Each coordinate of the clamp is the offset position clamped to the interval from 12 to the
      larger of 12 and the container's extent less the tooltip's reserve. */
  lemma TooltipPositionIsClamp(p: Point, c: Rect)
    ensures TooltipPosition(p, Some(c)).x == Clamp(p.x + 14.0, 12.0, Max(c.width - 220.0, 12.0))
    ensures TooltipPosition(p, Some(c)).y == Clamp(p.y + 18.0, 12.0, Max(c.height - 120.0, 12.0))
  {
  }

  /** The point of `[lo, hi]` nearest to `v`. */
  function Clamp(v: real, lo: real, hi: real): (r: real)
    requires lo <= hi
    ensures lo <= r <= hi
    ensures lo <= v <= hi ==> r == v
    ensures v < lo ==> r == lo
    ensures v > hi ==> r == hi
  {
    if v < lo then lo else if v > hi then hi else v
  }

  // ---------------------------------------------------------------- tooltips

  /** The layout's name as shown: its first hyphen made a space, surrounding blanks removed. */
  function ReadableName(name: string): (r: string)
    ensures |r| <= |name|
    ensures IsTrimOf(LayoutName(name), LeadingBlanks(LayoutName(name)), r)
    ensures r == [] <==> forall i :: 0 <= i < |name| ==> IsTrimmable(LayoutName(name)[i])
  {
    Trim(LayoutName(name))
  }

  /** The card's label for a readable layout name. */
  function CardLabel(readable: string): string {
    if readable != [] then readable + " layout" else "Graph animation"
  }

  /** `baseTooltip`: the card describing the active layout, or a generic card when the layout's
      readable name is empty. */
  function BaseTooltip(name: string): (r: Tooltip)
    ensures r.source == CardSource
    ensures r.labelText == CardLabel(ReadableName(name))
    ensures ReadableName(name) != [] ==>
              r.description == "Currently showcasing the " + ReadableName(name)
                               + " graph layout. Hover vertices to explore their roles."
    ensures ReadableName(name) == [] ==>
              r.description == "Currently showcasing an animated graph layout. Hover vertices to explore their roles."
  {
    var readable := ReadableName(name);
    if readable != [] then
      Tooltip(CardLabel(readable),
              "Currently showcasing the " + readable + " graph layout. Hover vertices to explore their roles.",
              CardSource)
    else
      Tooltip(CardLabel(readable),
              "Currently showcasing an animated graph layout. Hover vertices to explore their roles.",
              CardSource)
  }

  /** Two readable names get the same card label exactly when they are equal. */
  lemma CardLabelInjective(a: string, b: string)
    ensures CardLabel(a) == CardLabel(b) <==> a == b
  {
    if a != [] && b != [] {
      if a + " layout" == b + " layout" {
        assert a == (a + " layout")[..|a|];
        assert b == (b + " layout")[..|b|];
      }
    } else if a != [] || b != [] {
      var named := if a != [] then a else b;
      assert CardLabel(named)[|named| + 6] == 't';
      assert "Graph animation"[14] == 'n';
    }
  }

  /** Two layouts get the same card label exactly when their readable names agree. */
  lemma BaseLabelIdentifiesLayout(m: string, n: string)
    ensures BaseTooltip(m).labelText == BaseTooltip(n).labelText <==> ReadableName(m) == ReadableName(n)
  {
    CardLabelInjective(ReadableName(m), ReadableName(n));
  }

  /** The tooltip a node shows. */
  function NodeTooltip(node: NodeState): (r: Tooltip)
    ensures r.source == NodeSource && r.labelText == node.labelText && r.description == node.description
  {
    Tooltip(node.labelText, node.description, NodeSource)
  }

  /** `ensureDefaultTooltip(force)`: keeps a node tooltip unless forced, keeps a card that already
      matches `base`, and otherwise shows `base`. */
  function EnsureDefaultTooltip(current: Option<Tooltip>, base: Tooltip, force: bool): (r: Option<Tooltip>)
    ensures r.Some?
    ensures !force && current.Some? && current.value.source == NodeSource ==> r == current
    ensures base.source == CardSource && (force || current.None? || current.value.source == CardSource) ==>
              r == Some(base)
  {
    if !force && current.Some? && current.value.source == NodeSource then current
    else if current.Some? && current.value.source == CardSource
            && current.value.labelText == base.labelText && current.value.description == base.description then
      current
    else Some(base)
  }

  /** Ensuring the default twice is ensuring it once, and a forced ensure is never undone by an
      unforced one. */
  lemma EnsureDefaultTooltipIdempotent(current: Option<Tooltip>, base: Tooltip, force: bool, again: bool)
    requires base.source == CardSource
    ensures EnsureDefaultTooltip(EnsureDefaultTooltip(current, base, force), base, force)
            == EnsureDefaultTooltip(current, base, force)
    ensures EnsureDefaultTooltip(EnsureDefaultTooltip(current, base, true), base, again) == Some(base)
  {
  }

  // ---------------------------------------------------------------- layout switching

  /** The component as first rendered, given the persisted index; an index outside the catalogue
      renders the first layout under no name. */
  function Mount(cat: seq<GraphTemplate>, persisted: int): (r: View)
    requires ValidCatalogue(cat)
    ensures r.active == r.indexRef == r.persisted == persisted
    ensures r.nodes == CreateNodeState(TemplateAt(cat, persisted))
    ensures r.edges == CreateEdgeState(TemplateAt(cat, persisted))
    ensures r.name == NameAt(cat, persisted) && r.base == BaseTooltip(r.name)
    ensures r.tooltip.None? && !r.inside
  {
    var template := TemplateAt(cat, persisted);
    var name := NameAt(cat, persisted);
    View(persisted, persisted, persisted, name, BaseTooltip(name),
         CreateNodeState(template), CreateEdgeState(template), None, Point(0.0, 0.0), false)
  }

  /** `applyTemplate(index)`: the index reduced modulo the catalogue size becomes the active,
      referenced and persisted index; nodes and edges are rebuilt from it and the tooltip cleared. */
  function ApplyTemplate(cat: seq<GraphTemplate>, v: View, index: int): (r: View)
    requires ValidCatalogue(cat)
    ensures r.active == JsRem(index, |cat|)
    ensures index >= 0 ==> 0 <= r.active < |cat|
    ensures 0 <= index < |cat| ==> r.active == index
    ensures Applied(cat, v, r)
  {
    var safe := JsRem(index, |cat|);
    var template := TemplateAt(cat, safe);
    var name := NameAt(cat, safe);
    v.(active := safe, indexRef := safe, persisted := safe, name := name, base := BaseTooltip(name),
       nodes := CreateNodeState(template), edges := CreateEdgeState(template), tooltip := None)
  }

  /** `r` is `v` with the layout `r.active` applied: the three copies of the index agree, name,
      card, nodes and edges are rebuilt from that layout, the tooltip is cleared, the pointer left alone. */
  predicate Applied(cat: seq<GraphTemplate>, v: View, r: View)
    requires ValidCatalogue(cat)
  {
    && r.active == r.indexRef == r.persisted
    && r.name == NameAt(cat, r.active) && r.base == BaseTooltip(r.name)
    && r.nodes == CreateNodeState(TemplateAt(cat, r.active))
    && r.edges == CreateEdgeState(TemplateAt(cat, r.active))
    && r.tooltip.None?
    && r.pointer == v.pointer && r.inside == v.inside
  }

  /** The kickoff timer: on to the layout after the referenced one, wrapping around. */
  function KickoffSwitch(cat: seq<GraphTemplate>, v: View): (r: View)
    requires ValidCatalogue(cat)
    ensures 0 <= v.indexRef < |cat| ==> r.active == (if v.indexRef + 1 < |cat| then v.indexRef + 1 else 0)
    ensures 0 <= v.indexRef < |cat| && |cat| > 1 ==> r.active != v.indexRef
    ensures Applied(cat, v, r)
  {
    NextIndex(v.indexRef, |cat|);
    ApplyTemplate(cat, v, JsRem(v.indexRef + 1, |cat|))
  }

  /** The index after `i` within `[0, n)`, wrapping around. */
  lemma NextIndex(i: int, n: int)
    requires n > 0
    ensures 0 <= i < n ==> JsRem(i + 1, n) == (if i + 1 < n then i + 1 else 0)
  {
    if 0 <= i < n && i + 1 == n {
      assert JsRem(i + 1, n) == JsRem(0, n);
    }
  }

  /** Draws that `Math.floor(Math.random() * n)` can return, among them one other than `current`
      whenever there is another index to draw. */
  predicate UsableDraws(n: nat, current: int, draws: seq<int>) {
    && |draws| > 0
    && (forall k :: 0 <= k < |draws| ==> 0 <= draws[k] < n)
    && (n > 1 ==> exists k :: 0 <= k < |draws| && draws[k] != current)
  }

  /** The random rotation's choice: the first draw when there is a single layout, otherwise the
      first draw that differs from the current index. */
  function RandomPick(n: nat, current: int, draws: seq<int>): (r: int)
    requires UsableDraws(n, current, draws)
    ensures 0 <= r < n
    ensures n > 1 ==> r != current
    ensures exists k :: 0 <= k < |draws| && r == draws[k] && (n > 1 ==> forall j :: 0 <= j < k ==> draws[j] == current)
    decreases |draws|
  {
    if n <= 1 || draws[0] != current then draws[0]
    else
      var k :| 0 <= k < |draws| && draws[k] != current;
      assert draws[1..][k - 1] == draws[k];
      var r := RandomPick(n, current, draws[1..]);
      ghost var k' :| 0 <= k' < |draws| - 1 && r == draws[1..][k'] && (forall j :: 0 <= j < k' ==> draws[1..][j] == current);
      assert r == draws[k' + 1] && forall j :: 0 <= j < k' + 1 ==> draws[j] == current;
      r
  }

  /** The random rotation: `applyTemplate` of the pick. */
  function RandomRotation(cat: seq<GraphTemplate>, v: View, draws: seq<int>): (r: View)
    requires ValidCatalogue(cat) && UsableDraws(|cat|, v.indexRef, draws)
    ensures 0 <= r.active < |cat|
    ensures |cat| > 1 ==> r.active != v.indexRef
    ensures Applied(cat, v, r)
  {
    var pick := RandomPick(|cat|, v.indexRef, draws);
    ApplyTemplate(cat, v, pick)
  }

  // ---------------------------------------------------------------- handlers

  /** `updateTooltipPosition`: the pointer relative to the container, when the container is measured. */
  function TrackPointer(v: View, client: Point, rect: Option<Rect>): (r: View)
    ensures rect.None? ==> r == v
    ensures rect.Some? ==> r == v.(pointer := Point(client.x - rect.value.left, client.y - rect.value.top))
  {
    if rect.None? then v else v.(pointer := Point(client.x - rect.value.left, client.y - rect.value.top))
  }

  /** The container's `onPointerEnter`: the pointer is inside, tracked, and the default shown
      unless a node tooltip is up. */
  function ContainerEnterHandler(v: View, client: Point, rect: Option<Rect>): (r: View)
    ensures r.inside
    ensures r.tooltip == EnsureDefaultTooltip(v.tooltip, v.base, false)
    ensures r.tooltip.Some?
    ensures r.pointer == TrackPointer(v, client, rect).pointer
    ensures r == v.(inside := r.inside, tooltip := r.tooltip, pointer := r.pointer)
  {
    var w := TrackPointer(v.(inside := true), client, rect);
    w.(tooltip := EnsureDefaultTooltip(v.tooltip, v.base, false))
  }

  /** The container's `onPointerMove`: track the pointer and keep the default shown. */
  function ContainerMoveHandler(v: View, client: Point, rect: Option<Rect>): (r: View)
    ensures r.tooltip == EnsureDefaultTooltip(v.tooltip, v.base, false)
    ensures r.pointer == TrackPointer(v, client, rect).pointer
    ensures r == v.(tooltip := r.tooltip, pointer := r.pointer)
  {
    var w := TrackPointer(v, client, rect);
    w.(tooltip := EnsureDefaultTooltip(v.tooltip, v.base, false))
  }

  /** The container's `onPointerLeave`: outside, and no tooltip. */
  function ContainerLeaveHandler(v: View): (r: View)
    ensures !r.inside && r.tooltip.None?
    ensures r == v.(inside := r.inside, tooltip := r.tooltip)
  {
    v.(inside := false, tooltip := None)
  }

  /** The common `onPointerLeave`/`onBlur` of the drawing and of a node: the forced default while
      the pointer is inside, no tooltip otherwise. */
  function Dismiss(v: View): (r: View)
    ensures v.inside && v.base.source == CardSource ==> r.tooltip == Some(v.base)
    ensures v.inside ==> r.tooltip.Some?
    ensures !v.inside ==> r.tooltip.None?
    ensures r == v.(tooltip := r.tooltip)
  {
    if v.inside then v.(tooltip := EnsureDefaultTooltip(v.tooltip, v.base, true))
    else v.(tooltip := None)
  }

  /** A node's `onPointerEnter`: a hidden node does nothing; a visible one is tracked and shows
      its own tooltip. */
  function NodeEnterHandler(v: View, i: nat, client: Point, rect: Option<Rect>): (r: View)
    requires i < |v.nodes|
    ensures !v.nodes[i].visible ==> r == v
    ensures v.nodes[i].visible ==> r.tooltip == Some(NodeTooltip(v.nodes[i]))
    ensures v.nodes[i].visible ==> r.pointer == TrackPointer(v, client, rect).pointer
    ensures r == v.(tooltip := r.tooltip, pointer := r.pointer)
  {
    if !v.nodes[i].visible then v
    else TrackPointer(v, client, rect).(tooltip := Some(NodeTooltip(v.nodes[i])))
  }

  /** A node's `onPointerMove`: tracks the pointer over a visible node only. */
  function NodeMoveHandler(v: View, i: nat, client: Point, rect: Option<Rect>): (r: View)
    requires i < |v.nodes|
    ensures !v.nodes[i].visible ==> r == v
    ensures v.nodes[i].visible ==> r.pointer == TrackPointer(v, client, rect).pointer
    ensures r == v.(pointer := r.pointer)
  {
    if !v.nodes[i].visible then v else TrackPointer(v, client, rect)
  }

  /** A node's `onFocus` (`focusTooltipForNode`): a visible node, once the container is measured,
      moves the pointer to the node's place in the container and shows the node's tooltip. */
  function NodeFocusHandler(v: View, i: nat, rect: Option<Rect>): (r: View)
    requires i < |v.nodes|
    ensures !v.nodes[i].visible || rect.None? ==> r == v
    ensures v.nodes[i].visible && rect.Some? ==>
              && r.tooltip == Some(NodeTooltip(v.nodes[i]))
              && r.pointer == Point(v.nodes[i].x / 100.0 * rect.value.width, v.nodes[i].y / 100.0 * rect.value.height)
    ensures r == v.(tooltip := r.tooltip, pointer := r.pointer)
  {
    if !v.nodes[i].visible || rect.None? then v
    else
      var node := v.nodes[i];
      v.(pointer := Point(node.x / 100.0 * rect.value.width, node.y / 100.0 * rect.value.height),
         tooltip := Some(NodeTooltip(node)))
  }

  /** Whether an event can reach the handlers of `v`: a node event names a rendered node, and the
      random rotation's draws are usable. */
  predicate Applicable(cat: seq<GraphTemplate>, v: View, ev: Event) {
    match ev
    case NodeEnter(i, _, _) => i < |v.nodes|
    case NodeMove(i, _, _) => i < |v.nodes|
    case NodeLeave(i) => i < |v.nodes|
    case NodeFocus(i, _) => i < |v.nodes|
    case NodeBlur(i) => i < |v.nodes|
    case RandomTick(draws) => UsableDraws(|cat|, v.indexRef, draws)
    case _ => true
  }

  /** A timer firing, the only kind of event that switches layouts. */
  predicate IsTimer(ev: Event) {
    ev.Kickoff? || ev.RandomTick?
  }

  /** `w` shows the same layout as `v`: the indices, the memoized name and card, and the rendered
      nodes and edges agree. */
  predicate SameLayout(v: View, w: View) {
    && w.active == v.active && w.indexRef == v.indexRef && w.persisted == v.persisted
    && w.name == v.name && w.base == v.base && w.nodes == v.nodes && w.edges == v.edges
  }

  /** The handler of `ev`: each event reaches the handler the component attaches to its element,
      and only a timer switches layouts. */
  function Handle(cat: seq<GraphTemplate>, v: View, ev: Event): (r: View)
    requires ValidCatalogue(cat) && Applicable(cat, v, ev)
    ensures !IsTimer(ev) ==> SameLayout(v, r)
  {
    match ev
    case ContainerEnter(client, rect) => ContainerEnterHandler(v, client, rect)
    case ContainerMove(client, rect) => ContainerMoveHandler(v, client, rect)
    case ContainerLeave => ContainerLeaveHandler(v)
    case SvgMove(client, rect) => TrackPointer(v, client, rect)
    case SvgLeave => Dismiss(v)
    case NodeEnter(i, client, rect) => NodeEnterHandler(v, i, client, rect)
    case NodeMove(i, client, rect) => NodeMoveHandler(v, i, client, rect)
    case NodeLeave(_) => Dismiss(v)
    case NodeFocus(i, rect) => NodeFocusHandler(v, i, rect)
    case NodeBlur(_) => Dismiss(v)
    case Kickoff => KickoffSwitch(cat, v)
    case RandomTick(draws) => RandomRotation(cat, v, draws)
  }

  /** The drawing's pointer move is `updateTooltipPosition`; the drawing's pointer leave and a
      node's pointer leave and blur share the dismissal. */
  lemma HandleRoutesPointer(cat: seq<GraphTemplate>, v: View, ev: Event)
    requires ValidCatalogue(cat) && Applicable(cat, v, ev)
    ensures ev.SvgMove? ==> Handle(cat, v, ev) == TrackPointer(v, ev.client, ev.rect)
    ensures ev.SvgLeave? || ev.NodeLeave? || ev.NodeBlur? ==> Handle(cat, v, ev) == Dismiss(v)
  {
  }

  /** Both timers apply a layout. */
  lemma HandleTimerApplies(cat: seq<GraphTemplate>, v: View, ev: Event)
    requires ValidCatalogue(cat) && Applicable(cat, v, ev) && IsTimer(ev)
    ensures Applied(cat, v, Handle(cat, v, ev))
  {
  }

  /** The effect that re-runs `ensureDefaultTooltip()` after a render in which the pointer is
      inside and either the inside flag or the active layout's name changed. */
  function Settle(before: View, after: View): (r: View)
    ensures r == after.(tooltip := r.tooltip)
    ensures after.inside && (!before.inside || before.name != after.name) ==>
              r.tooltip == EnsureDefaultTooltip(after.tooltip, after.base, false)
    ensures !(after.inside && (!before.inside || before.name != after.name)) ==> r == after
  {
    if after.inside && (!before.inside || before.name != after.name) then
      after.(tooltip := EnsureDefaultTooltip(after.tooltip, after.base, false))
    else after
  }

  /** One event: its handler, then the effect, which touches only the tooltip. */
  function Step(cat: seq<GraphTemplate>, v: View, ev: Event): (r: View)
    requires ValidCatalogue(cat) && Applicable(cat, v, ev)
    ensures r == Handle(cat, v, ev).(tooltip := r.tooltip)
  {
    Settle(v, Handle(cat, v, ev))
  }

  /** A render that finds the pointer newly inside, or inside under a new layout name, ends with
      a tooltip up, whatever the handler did to it. */
  lemma StepShowsTooltipOnChange(cat: seq<GraphTemplate>, v: View, ev: Event)
    requires ValidCatalogue(cat) && Applicable(cat, v, ev)
    ensures var r := Step(cat, v, ev); r.inside && (!v.inside || v.name != r.name) ==> r.tooltip.Some?
  {
  }

  /** Every event of `evs`, in order, can reach the handlers of the state it meets. */
  predicate Feasible(cat: seq<GraphTemplate>, v: View, evs: seq<Event>)
    requires ValidCatalogue(cat)
    decreases |evs|
  {
    |evs| == 0 || (Applicable(cat, v, evs[0]) && Feasible(cat, Step(cat, v, evs[0]), evs[1..]))
  }

  /** The state after the events `evs`. Without a timer firing among them the layout stays. */
  function Run(cat: seq<GraphTemplate>, v: View, evs: seq<Event>): (r: View)
    requires ValidCatalogue(cat) && Feasible(cat, v, evs)
    ensures (forall k :: 0 <= k < |evs| ==> !IsTimer(evs[k])) ==> SameLayout(v, r)
    decreases |evs|
  {
    if |evs| == 0 then v else Run(cat, Step(cat, v, evs[0]), evs[1..])
  }

  /** Running `a` and then `b` is running `a + b`: a feasible run splits at any point. */
  lemma {:induction false} RunAppend(cat: seq<GraphTemplate>, v: View, a: seq<Event>, b: seq<Event>)
    requires ValidCatalogue(cat) && Feasible(cat, v, a + b)
    ensures Feasible(cat, v, a) && Feasible(cat, Run(cat, v, a), b)
    ensures Run(cat, v, a + b) == Run(cat, Run(cat, v, a), b)
    decreases |a|
  {
    if |a| > 0 {
      assert (a + b)[0] == a[0] && (a + b)[1..] == a[1..] + b;
      RunAppend(cat, Step(cat, v, a[0]), a[1..], b);
    } else {
      assert a + b == b;
    }
  }

  // ---------------------------------------------------------------- invariants

  /** The tooltip, if any, is the memoized card or the tooltip of a visible rendered node. */
  predicate TooltipCurrent(v: View) {
    v.tooltip.Some? ==>
      if v.tooltip.value.source == CardSource then v.tooltip.value == v.base
      else exists i :: 0 <= i < |v.nodes| && v.nodes[i].visible && v.tooltip.value == NodeTooltip(v.nodes[i])
  }

  /** The invariant of the component: the three copies of the index agree, the memoized name and
      card and the rendered nodes and edges are those of the active layout, and the tooltip is
      current. */
  predicate Inv(cat: seq<GraphTemplate>, v: View)
    requires ValidCatalogue(cat)
  {
    && v.indexRef == v.active
    && v.persisted == v.active
    && v.name == NameAt(cat, v.active)
    && v.base == BaseTooltip(v.name)
    && v.nodes == CreateNodeState(TemplateAt(cat, v.active))
    && v.edges == CreateEdgeState(TemplateAt(cat, v.active))
    && TooltipCurrent(v)
  }

  lemma MountEstablishesInv(cat: seq<GraphTemplate>, persisted: int)
    requires ValidCatalogue(cat)
    ensures Inv(cat, Mount(cat, persisted))
    ensures |Mount(cat, persisted).nodes| == |NodeDefinitions|
  {
  }

  /** Ensuring the default keeps a current tooltip current. */
  lemma EnsureKeepsCurrent(v: View, force: bool)
    requires TooltipCurrent(v) && v.base.source == CardSource
    ensures TooltipCurrent(v.(tooltip := EnsureDefaultTooltip(v.tooltip, v.base, force)))
  {
    var w := v.(tooltip := EnsureDefaultTooltip(v.tooltip, v.base, force));
    if w.tooltip.value.source == NodeSource {
      assert w.tooltip == v.tooltip;
      var i :| 0 <= i < |v.nodes| && v.nodes[i].visible && v.tooltip.value == NodeTooltip(v.nodes[i]);
      assert w.nodes[i] == v.nodes[i];
    }
  }

  /** A state with the same nodes, card and tooltip keeps a current tooltip current. */
  lemma NodeTooltipSurvives(v: View, w: View)
    requires TooltipCurrent(v)
    requires w.nodes == v.nodes && w.base == v.base && w.tooltip == v.tooltip
    ensures TooltipCurrent(w)
  {
    if w.tooltip.Some? && w.tooltip.value.source == NodeSource {
      var i :| 0 <= i < |v.nodes| && v.nodes[i].visible && v.tooltip.value == NodeTooltip(v.nodes[i]);
      assert w.nodes[i] == v.nodes[i];
    }
  }

  /** Every handler keeps the invariant. */
  lemma HandlePreservesInv(cat: seq<GraphTemplate>, v: View, ev: Event)
    requires ValidCatalogue(cat) && Applicable(cat, v, ev) && Inv(cat, v)
    ensures Inv(cat, Handle(cat, v, ev))
  {
    match ev
    case ContainerEnter(client, rect) => ContainerEnterKeepsInv(cat, v, client, rect);
    case ContainerMove(client, rect) => ContainerMoveKeepsInv(cat, v, client, rect);
    case ContainerLeave =>
    case SvgMove(client, rect) => TrackPointerKeepsInv(cat, v, client, rect);
    case SvgLeave => DismissKeepsInv(cat, v);
    case NodeEnter(i, client, rect) => NodeEnterKeepsInv(cat, v, i, client, rect);
    case NodeMove(i, client, rect) => NodeMoveKeepsInv(cat, v, i, client, rect);
    case NodeLeave(_) => DismissKeepsInv(cat, v);
    case NodeFocus(i, rect) => NodeFocusKeepsInv(cat, v, i, rect);
    case NodeBlur(_) => DismissKeepsInv(cat, v);
    case Kickoff => AppliedKeepsInv(cat, v, KickoffSwitch(cat, v));
    case RandomTick(draws) => AppliedKeepsInv(cat, v, RandomRotation(cat, v, draws));
  }

  lemma TrackPointerKeepsInv(cat: seq<GraphTemplate>, v: View, client: Point, rect: Option<Rect>)
    requires ValidCatalogue(cat) && Inv(cat, v)
    ensures Inv(cat, TrackPointer(v, client, rect))
  {
    NodeTooltipSurvives(v, TrackPointer(v, client, rect));
  }

  lemma ContainerEnterKeepsInv(cat: seq<GraphTemplate>, v: View, client: Point, rect: Option<Rect>)
    requires ValidCatalogue(cat) && Inv(cat, v)
    ensures Inv(cat, ContainerEnterHandler(v, client, rect))
  {
    EnsureKeepsCurrent(TrackPointer(v.(inside := true), client, rect), false);
  }

  lemma ContainerMoveKeepsInv(cat: seq<GraphTemplate>, v: View, client: Point, rect: Option<Rect>)
    requires ValidCatalogue(cat) && Inv(cat, v)
    ensures Inv(cat, ContainerMoveHandler(v, client, rect))
  {
    EnsureKeepsCurrent(TrackPointer(v, client, rect), false);
  }

  lemma DismissKeepsInv(cat: seq<GraphTemplate>, v: View)
    requires ValidCatalogue(cat) && Inv(cat, v)
    ensures Inv(cat, Dismiss(v))
  {
    EnsureKeepsCurrent(v, true);
  }

  lemma NodeEnterKeepsInv(cat: seq<GraphTemplate>, v: View, i: nat, client: Point, rect: Option<Rect>)
    requires ValidCatalogue(cat) && Inv(cat, v) && i < |v.nodes|
    ensures Inv(cat, NodeEnterHandler(v, i, client, rect))
  {
    var r := NodeEnterHandler(v, i, client, rect);
    if v.nodes[i].visible {
      assert r.nodes[i] == v.nodes[i];
    }
  }

  lemma NodeMoveKeepsInv(cat: seq<GraphTemplate>, v: View, i: nat, client: Point, rect: Option<Rect>)
    requires ValidCatalogue(cat) && Inv(cat, v) && i < |v.nodes|
    ensures Inv(cat, NodeMoveHandler(v, i, client, rect))
  {
    NodeTooltipSurvives(v, NodeMoveHandler(v, i, client, rect));
  }

  lemma NodeFocusKeepsInv(cat: seq<GraphTemplate>, v: View, i: nat, rect: Option<Rect>)
    requires ValidCatalogue(cat) && Inv(cat, v) && i < |v.nodes|
    ensures Inv(cat, NodeFocusHandler(v, i, rect))
  {
    var r := NodeFocusHandler(v, i, rect);
    if v.nodes[i].visible && rect.Some? {
      assert r.nodes[i] == v.nodes[i];
    }
  }

  /** A freshly applied layout satisfies the invariant. */
  lemma AppliedKeepsInv(cat: seq<GraphTemplate>, v: View, r: View)
    requires ValidCatalogue(cat) && Applied(cat, v, r)
    ensures Inv(cat, r)
  {
  }

  /** Every step keeps the invariant. */
  lemma StepPreservesInv(cat: seq<GraphTemplate>, v: View, ev: Event)
    requires ValidCatalogue(cat) && Applicable(cat, v, ev) && Inv(cat, v)
    ensures Inv(cat, Step(cat, v, ev))
  {
    var h := Handle(cat, v, ev);
    HandlePreservesInv(cat, v, ev);
    EnsureKeepsCurrent(h, false);
  }

  /** Every state reached from one that keeps the invariant keeps it. */
  lemma {:induction false} RunPreservesInv(cat: seq<GraphTemplate>, v: View, evs: seq<Event>)
    requires ValidCatalogue(cat) && Inv(cat, v) && Feasible(cat, v, evs)
    ensures Inv(cat, Run(cat, v, evs))
    decreases |evs|
  {
    if |evs| > 0 {
      StepPreservesInv(cat, v, evs[0]);
      RunPreservesInv(cat, Step(cat, v, evs[0]), evs[1..]);
    }
  }

  // ---------------------------------------------------------------- step-level properties

  /** Entering, moving over or focusing a hidden node changes nothing. */
  lemma HiddenNodeInert(cat: seq<GraphTemplate>, v: View, ev: Event)
    requires ValidCatalogue(cat) && Applicable(cat, v, ev)
    requires ev.NodeEnter? || ev.NodeMove? || ev.NodeFocus?
    requires !v.nodes[ev.node].visible
    ensures Step(cat, v, ev) == v
  {
  }

  /** Entering a visible node, or focusing it once the container is measured, shows that node's
      tooltip. */
  lemma VisibleNodeShowsTooltip(cat: seq<GraphTemplate>, v: View, ev: Event)
    requires ValidCatalogue(cat) && Applicable(cat, v, ev)
    requires ev.NodeEnter? || (ev.NodeFocus? && ev.rect.Some?)
    requires v.nodes[ev.node].visible
    ensures Step(cat, v, ev).tooltip == Some(NodeTooltip(v.nodes[ev.node]))
    ensures Step(cat, v, ev).active == v.active
  {
  }

  /** Leaving or blurring a node, or leaving the drawing, shows the active layout's card while the
      pointer is inside the container and no tooltip otherwise. */
  lemma DismissShowsCardOrNothing(cat: seq<GraphTemplate>, v: View, ev: Event)
    requires ValidCatalogue(cat) && Applicable(cat, v, ev) && Inv(cat, v)
    requires ev.NodeLeave? || ev.NodeBlur? || ev.SvgLeave?
    ensures v.inside ==> Step(cat, v, ev).tooltip == Some(BaseTooltip(NameAt(cat, v.active)))
    ensures !v.inside ==> Step(cat, v, ev).tooltip.None?
    ensures Step(cat, v, ev).active == v.active && Step(cat, v, ev).inside == v.inside
  {
  }

  /** No two layouts share a name. */
  predicate DistinctNames(cat: seq<GraphTemplate>) {
    forall i, j :: 0 <= i < j < |cat| ==> cat[i].name != cat[j].name
  }

  /** The active index is one of the catalogue's, and while the pointer is inside the container
      some tooltip is shown. */
  predicate Attentive(cat: seq<GraphTemplate>, v: View) {
    && 0 <= v.active < |cat|
    && (v.inside ==> v.tooltip.Some?)
  }

  /** With at least two layouts of distinct names, a tooltip stays up while the pointer is inside:
      a layout switch clears it, and the effect puts the new layout's card back. */
  lemma StepKeepsAttentive(cat: seq<GraphTemplate>, v: View, ev: Event)
    requires |cat| > 1 && DistinctNames(cat)
    requires Applicable(cat, v, ev) && Inv(cat, v) && Attentive(cat, v)
    ensures Attentive(cat, Step(cat, v, ev))
  {
    if ev.Kickoff? {
      SwitchKeepsAttentive(cat, v, KickoffSwitch(cat, v));
    } else if ev.RandomTick? {
      SwitchKeepsAttentive(cat, v, RandomRotation(cat, v, ev.draws));
    } else {
      HandlerKeepsAttentive(cat, v, ev);
    }
  }

  /** A handler that does not switch layouts keeps the active index and a tooltip while inside. */
  lemma HandlerKeepsAttentive(cat: seq<GraphTemplate>, v: View, ev: Event)
    requires ValidCatalogue(cat) && Applicable(cat, v, ev) && Attentive(cat, v)
    requires !ev.Kickoff? && !ev.RandomTick?
    ensures Attentive(cat, Handle(cat, v, ev))
  {
  }

  /** A switch to another layout of the catalogue leaves the state attentive once the effect has run. */
  lemma SwitchKeepsAttentive(cat: seq<GraphTemplate>, v: View, r: View)
    requires ValidCatalogue(cat) && DistinctNames(cat) && Inv(cat, v) && Attentive(cat, v)
    requires Applied(cat, v, r) && 0 <= r.active < |cat| && r.active != v.active
    ensures Attentive(cat, Settle(v, r))
  {
    assert v.name != r.name;
  }

  /** A switch to a layout of the same name leaves no tooltip while the pointer is inside: the
      switch clears it, and the effect does not run because neither of its inputs changed. */
  lemma SameNameSwitchHidesTooltip(cat: seq<GraphTemplate>, v: View, r: View)
    requires ValidCatalogue(cat) && Applied(cat, v, r) && v.inside && r.name == v.name
    ensures Settle(v, r).inside && Settle(v, r).tooltip.None?
  {
  }

  /** With a single layout the kickoff re-applies it, and a pointer inside the container is left
      without a tooltip: the precondition `|cat| > 1` of `StepKeepsAttentive` is needed. */
  lemma KickoffOnSingleLayoutHidesTooltip(cat: seq<GraphTemplate>, v: View)
    requires |cat| == 1 && Inv(cat, v) && Attentive(cat, v) && v.inside
    ensures Step(cat, v, Event.Kickoff).inside && Step(cat, v, Event.Kickoff).tooltip.None?
  {
    var r := KickoffSwitch(cat, v);
    assert Step(cat, v, Event.Kickoff) == Settle(v, r);
    assert r.active == 0 == v.active;
    SameNameSwitchHidesTooltip(cat, v, r);
  }

  /** From a state inside the catalogue that keeps the invariant, every reachable state keeps it
      and shows a tooltip while the pointer is inside. */
  lemma {:induction false} RunKeepsAttentive(cat: seq<GraphTemplate>, v: View, evs: seq<Event>)
    requires |cat| > 1 && DistinctNames(cat)
    requires Inv(cat, v) && Attentive(cat, v) && Feasible(cat, v, evs)
    ensures Inv(cat, Run(cat, v, evs)) && Attentive(cat, Run(cat, v, evs))
    decreases |evs|
  {
    if |evs| > 0 {
      StepPreservesInv(cat, v, evs[0]);
      StepKeepsAttentive(cat, v, evs[0]);
      RunKeepsAttentive(cat, Step(cat, v, evs[0]), evs[1..]);
    }
  }

  /** The first render at a persisted index inside the catalogue starts attentive. */
  lemma MountAttentive(cat: seq<GraphTemplate>, persisted: int)
    requires ValidCatalogue(cat) && 0 <= persisted < |cat|
    ensures Attentive(cat, Mount(cat, persisted))
  {
  }
}

=== FILE: graph.dfy ===
/** The data model of the graph animation (landing/src/components/graph-animation.tsx) and the
    layout materializer that turns a sparse template into complete render state. Coordinates are
    percentages of the drawing box; sizes and weights are exact reals. */
module Graph {
  import opened Options
  import opened Text
  import opened Sorting

  /** One vertex of the fixed roster and its base radius. */
  datatype NodeDefinition = NodeDefinition(id: string, radius: real)

  /** A template's placement of one vertex; the optional fields default when materialized. */
  datatype TemplateNode = TemplateNode(
    x: real,
    y: real,
    visible: Option<bool>,
    radiusScale: Option<real>,
    labelText: Option<string>,
    description: Option<string>)

  datatype TemplateEdge = TemplateEdge(from: string, to: string, weight: Option<real>, dashed: Option<bool>)

  /** A named layout: a partial record from vertex id to placement, and an ordered edge list. */
  datatype GraphTemplate = GraphTemplate(name: string, nodes: map<string, TemplateNode>, edges: seq<TemplateEdge>)

  datatype NodeState = NodeState(
    id: string,
    radius: real,
    x: real,
    y: real,
    visible: bool,
    labelText: string,
    description: string)

  datatype EdgeState = EdgeState(id: string, from: string, to: string, weight: real, dashed: bool)

  /** The fixed roster: eight vertices `a`..`h` shared by every template. */
  const NodeDefinitions: seq<NodeDefinition> := [
    NodeDefinition("a", 3.6),
    NodeDefinition("b", 2.8),
    NodeDefinition("c", 3.1),
    NodeDefinition("d", 2.4),
    NodeDefinition("e", 4.1),
    NodeDefinition("f", 2.9),
    NodeDefinition("g", 2.6),
    NodeDefinition("h", 3.0)
  ]

  /** The roster ids as a set. */
  function RosterIds(): (r: set<string>)
    ensures r == {"a", "b", "c", "d", "e", "f", "g", "h"}
  {
    var r := set i | 0 <= i < |NodeDefinitions| :: NodeDefinitions[i].id;
    assert r <= {"a", "b", "c", "d", "e", "f", "g", "h"};
    assert NodeDefinitions[0].id in r && NodeDefinitions[1].id in r && NodeDefinitions[2].id in r
        && NodeDefinitions[3].id in r && NodeDefinitions[4].id in r && NodeDefinitions[5].id in r
        && NodeDefinitions[6].id in r && NodeDefinitions[7].id in r;
    r
  }

  /** No two roster entries share an id, and every base radius is positive. */
  lemma RosterWellFormed()
    ensures |NodeDefinitions| == 8
    ensures forall i, j :: 0 <= i < j < |NodeDefinitions| ==> NodeDefinitions[i].id != NodeDefinitions[j].id
    ensures forall i :: 0 <= i < |NodeDefinitions| ==> NodeDefinitions[i].radius > 0.0
  {
  }

  /** `template.name.replace("-", " ")`: the name with its first hyphen made a space. */
  function LayoutName(name: string): (r: string)
    ensures |r| == |name|
    ensures '-' in name ==> r[IndexOf(name, '-')] == ' '
    ensures forall i :: 0 <= i < |name| && i != IndexOf(name, '-') ==> r[i] == name[i]
  {
    ReplaceFirst(name, '-', ' ')
  }

  function HiddenDescription(shown: string, layout: string): string {
    "Vertex " + shown + " is hidden in the " + layout + " layout."
  }

  function InsideDescription(shown: string, layout: string): string {
    "Vertex " + shown + " inside the " + layout + " layout."
  }

  /** The render state of one roster vertex under `template`. */
  function MaterializeNode(definition: NodeDefinition, template: GraphTemplate): (r: NodeState)
    ensures r.id == definition.id
    ensures definition.id !in template.nodes ==>
              && r.x == 50.0 && r.y == 50.0 && !r.visible && r.radius == definition.radius
              && r.labelText == ToUpper(definition.id)
              && r.description == HiddenDescription(ToUpper(definition.id), LayoutName(template.name))
    ensures definition.id in template.nodes ==>
              var spec := template.nodes[definition.id];
              && r.x == spec.x && r.y == spec.y
              && r.radius == definition.radius * (if spec.radiusScale.Some? then spec.radiusScale.value else 1.0)
              && r.visible == (spec.visible != Some(false))
              && r.labelText == (if spec.labelText.Some? then spec.labelText.value else ToUpper(definition.id))
              && r.description == (if spec.description.Some? then spec.description.value
                                   else InsideDescription(r.labelText, LayoutName(template.name)))
  {
    var baseLabel := ToUpper(definition.id);
    var templateName := LayoutName(template.name);
    if definition.id !in template.nodes then
      NodeState(definition.id, definition.radius, 50.0, 50.0, false, baseLabel,
                HiddenDescription(baseLabel, templateName))
    else
      var spec := template.nodes[definition.id];
      var shown := spec.labelText.GetOr(baseLabel);
      var description := spec.description.GetOr(InsideDescription(shown, templateName));
      NodeState(definition.id, definition.radius * spec.radiusScale.GetOr(1.0), spec.x, spec.y,
                spec.visible.GetOr(true), shown, description)
  }

  /** `createNodeState`: one node per roster entry, in roster order, whatever the template holds. */
  function CreateNodeState(template: GraphTemplate): (r: seq<NodeState>)
    ensures |r| == |NodeDefinitions|
    ensures forall i :: 0 <= i < |r| ==> r[i] == MaterializeNode(NodeDefinitions[i], template)
  {
    seq(|NodeDefinitions|, i requires 0 <= i < |NodeDefinitions| => MaterializeNode(NodeDefinitions[i], template))
  }

  /** The id `${name}-edge-${index}`. */
  function EdgeId(name: string, index: nat): string {
    name + "-edge-" + NatToString(index)
  }

  /** Edge ids of one template never collide. */
  lemma EdgeIdsDistinct(name: string, i: nat, j: nat)
    requires i != j
    ensures EdgeId(name, i) != EdgeId(name, j)
  {
    var p := name + "-edge-";
    assert EdgeId(name, i)[|p|..] == NatToString(i);
    assert EdgeId(name, j)[|p|..] == NatToString(j);
  }

  /** `createEdgeState`: the template's edges, in order, with ids and defaults filled in. */
  function CreateEdgeState(template: GraphTemplate): (r: seq<EdgeState>)
    ensures |r| == |template.edges|
    ensures forall i :: 0 <= i < |r| ==>
              var e := template.edges[i];
              && r[i].from == e.from && r[i].to == e.to
              && r[i].weight == (if e.weight.Some? then e.weight.value else 1.0)
              && r[i].dashed == (e.dashed == Some(true))
    ensures forall i :: 0 <= i < |r| ==> r[i].id == EdgeId(template.name, i)
    ensures forall i, j :: 0 <= i < j < |r| ==> r[i].id != r[j].id
  {
    var r := seq(|template.edges|, i requires 0 <= i < |template.edges| =>
      var e := template.edges[i];
      EdgeState(EdgeId(template.name, i), e.from, e.to, e.weight.GetOr(1.0), e.dashed.GetOr(false)));
    assert forall i, j :: 0 <= i < j < |r| ==> r[i].id != r[j].id by {
      forall i, j | 0 <= i < j < |r|
        ensures r[i].id != r[j].id
      {
        EdgeIdsDistinct(template.name, i, j);
      }
    }
    r
  }

  /** The `nodeLookup` record: each node stored under its id, a later node replacing an earlier one. */
  function NodeLookup(nodes: seq<NodeState>): (r: map<string, NodeState>)
    ensures r.Keys == set i | 0 <= i < |nodes| :: nodes[i].id
    ensures forall id :: id in r ==> r[id].id == id
    ensures forall i :: 0 <= i < |nodes| && (forall j :: i < j < |nodes| ==> nodes[j].id != nodes[i].id)
                        ==> r[nodes[i].id] == nodes[i]
  {
    if |nodes| == 0 then map[]
    else
      var last := nodes[|nodes| - 1];
      var r := NodeLookup(nodes[..|nodes| - 1])[last.id := last];
      assert forall i :: 0 <= i < |nodes| - 1 ==> nodes[i] == nodes[..|nodes| - 1][i];
      r
  }

  /** The materialized nodes are looked up by roster id. */
  lemma LookupFindsRosterNode(template: GraphTemplate, i: nat)
    requires i < |NodeDefinitions|
    ensures NodeDefinitions[i].id in NodeLookup(CreateNodeState(template))
    ensures NodeLookup(CreateNodeState(template))[NodeDefinitions[i].id] == MaterializeNode(NodeDefinitions[i], template)
  {
    RosterWellFormed();
    var nodes := CreateNodeState(template);
    assert forall j :: i < j < |nodes| ==> nodes[j].id != nodes[i].id;
  }

  /** The filter of the edge renderer: an edge is drawn only when both endpoints exist and are visible. */
  predicate Drawn(e: EdgeState, lookup: map<string, NodeState>) {
    e.from in lookup && lookup[e.from].visible && e.to in lookup && lookup[e.to].visible
  }

  /** The edges the component draws, in order. */
  function VisibleEdges(edges: seq<EdgeState>, nodes: seq<NodeState>): (r: seq<EdgeState>)
    ensures forall i :: 0 <= i < |r| ==> r[i] in edges && Drawn(r[i], NodeLookup(nodes))
    ensures forall i :: 0 <= i < |edges| && Drawn(edges[i], NodeLookup(nodes)) ==> edges[i] in r
  {
    Filter(edges, DrawnIn(NodeLookup(nodes)))
  }

  /** The renderer's edge test as a function value. */
  function DrawnIn(lookup: map<string, NodeState>): EdgeState -> bool {
    e => Drawn(e, lookup)
  }

  /** The edges are drawn front to back: the first edge exactly when it passes the filter, ahead
      of the drawn rest. With no edges nothing is drawn, so this fixes the drawn edges and their
      order completely. */
  lemma VisibleEdgesUnfold(edges: seq<EdgeState>, nodes: seq<NodeState>)
    requires |edges| > 0
    ensures VisibleEdges(edges, nodes)
            == (if Drawn(edges[0], NodeLookup(nodes)) then [edges[0]] else []) + VisibleEdges(edges[1..], nodes)
  {
    assert edges == [edges[0]] + edges[1..];
    FilterConcat([edges[0]], edges[1..], DrawnIn(NodeLookup(nodes)));
    FilterSingle(edges[0], DrawnIn(NodeLookup(nodes)));
  }

  /** A vertex is shown exactly when the template places it and does not mark it hidden. */
  predicate ShownBy(template: GraphTemplate, id: string) {
    id in template.nodes && template.nodes[id].visible != Some(false)
  }

  /** The lookup of the materialized nodes is keyed by exactly the roster ids, and a roster
      vertex is visible there exactly when the template shows it. */
  lemma LookupVisibility(template: GraphTemplate, id: string)
    ensures NodeLookup(CreateNodeState(template)).Keys == RosterIds()
    ensures id in RosterIds() ==> NodeLookup(CreateNodeState(template))[id].visible == ShownBy(template, id)
  {
    var nodes := CreateNodeState(template);
    assert (set i | 0 <= i < |nodes| :: nodes[i].id) == RosterIds() by {
      assert forall i :: 0 <= i < |nodes| ==> nodes[i].id == NodeDefinitions[i].id;
    }
    if id in RosterIds() {
      var i :| 0 <= i < |NodeDefinitions| && NodeDefinitions[i].id == id;
      LookupFindsRosterNode(template, i);
    }
  }

  /** In terms of the template alone: an edge is drawn exactly when both its endpoints are roster
      vertices that the template shows. */
  lemma DrawnIffEndpointsShown(template: GraphTemplate, e: EdgeState)
    ensures Drawn(e, NodeLookup(CreateNodeState(template))) <==>
              e.from in RosterIds() && ShownBy(template, e.from) && e.to in RosterIds() && ShownBy(template, e.to)
  {
    LookupVisibility(template, e.from);
    LookupVisibility(template, e.to);
  }

  /** The template places every roster vertex, none of them marked hidden, and nothing else. */
  predicate ShowsWholeRoster(template: GraphTemplate) {
    && template.nodes.Keys == RosterIds()
    && forall id :: id in template.nodes ==> template.nodes[id].visible.None?
  }

  /** The template has edges, and each joins two roster vertices. */
  predicate EdgesWithinRoster(template: GraphTemplate) {
    && |template.edges| > 0
    && forall i :: 0 <= i < |template.edges| ==>
         template.edges[i].from in RosterIds() && template.edges[i].to in RosterIds()
  }

  /** A template that shows the whole roster gets every one of its edges drawn, in order. */
  lemma AllEdgesDrawn(template: GraphTemplate)
    requires ShowsWholeRoster(template) && EdgesWithinRoster(template)
    ensures VisibleEdges(CreateEdgeState(template), CreateNodeState(template)) == CreateEdgeState(template)
  {
    var edges := CreateEdgeState(template);
    var lookup := NodeLookup(CreateNodeState(template));
    EveryEdgeDrawn(template);
    FilterAllKept(edges, DrawnIn(lookup));
  }

  lemma EveryEdgeDrawn(template: GraphTemplate)
    requires ShowsWholeRoster(template) && EdgesWithinRoster(template)
    ensures forall i :: 0 <= i < |CreateEdgeState(template)| ==>
              Drawn(CreateEdgeState(template)[i], NodeLookup(CreateNodeState(template)))
  {
    var edges := CreateEdgeState(template);
    forall i | 0 <= i < |edges|
      ensures Drawn(edges[i], NodeLookup(CreateNodeState(template)))
    {
      DrawnIffEndpointsShown(template, edges[i]);
    }
  }
}

=== FILE: options.dfy ===
/** The `T | undefined` / `T | null` values of the site's TypeScript, and the `??` operator on them. */
module Options {

  datatype Option<+T> = None | Some(value: T) {

    /** `this ?? fallback`: the carried value, or `fallback` when there is none. */
    function GetOr(fallback: T): (r: T)
      ensures Some? ==> r == value
      ensures None? ==> r == fallback
    {
      match this
      case Some(v) => v
      case None => fallback
    }
  }
}

=== FILE: placement.dfy ===
/** The two helpers the layout catalogue of the graph animation is built with
    (landing/src/components/graph-animation.tsx): radial placement and metadata overlay.
    Trigonometry is a parameter: `circle(t)` stands for `(Math.cos(t * Math.PI), Math.sin(t * Math.PI))`,
    angles being written in units of pi. */
module Placement {
  import opened Options
  import opened Graph

  /** A whole number of hundredths. */
  predicate Hundredths(x: real) {
    (x * 100.0).Floor as real == x * 100.0
  }

  /** `r` is the multiple of 0.01 nearest to `v`, a tie going away from zero. */
  predicate NearestHundredth(v: real, r: real) {
    && Hundredths(r)
    && -0.005 <= r - v <= 0.005
    && (v >= 0.0 ==> -0.005 < r - v)
    && (v < 0.0 ==> r - v < 0.005)
  }

  /** At most one value is the nearest hundredth of `v`. */
  lemma NearestHundredthUnique(v: real, r: real, t: real)
    requires NearestHundredth(v, r) && NearestHundredth(v, t)
    ensures r == t
  {
    var a, b := (r * 100.0).Floor, (t * 100.0).Floor;
    assert -1.0 < (a - b) as real < 1.0;
  }

  /** `+v.toFixed(2)`: `v` rounded to two decimals, halves away from zero. */
  function Round2(v: real): (r: real)
    ensures NearestHundredth(v, r)
    ensures v >= 0.0 ==> r >= 0.0
  {
    if v < 0.0 then HundredthsNegate(RoundUp2(-v)); -RoundUp2(-v) else RoundUp2(v)
  }

  /** Negation keeps a whole number of hundredths. */
  lemma HundredthsNegate(x: real)
    requires Hundredths(x)
    ensures Hundredths(-x)
  {
    var k := (x * 100.0).Floor;
    assert -x * 100.0 == (-k) as real;
  }

  /** The nearest multiple of 0.01, the larger one on a tie. */
  function RoundUp2(v: real): (r: real)
    ensures Hundredths(r)
    ensures -0.005 < r - v <= 0.005
  {
    var k := (v * 100.0 + 0.5).Floor;
    assert (k as real / 100.0) * 100.0 == k as real;
    k as real / 100.0
  }

  /** `createRadialNodes`: places `ids` at equal angular steps of `2 / |ids|` (times pi) around
      `(cx, cy)`, starting at angle `rotation`; a repeated id keeps its last placement. */
  function RadialNodes(ids: seq<string>, radius: real, rotation: real, cx: real, cy: real,
                       circle: real -> (real, real)): (r: map<string, TemplateNode>)
    ensures forall id :: id in r <==> id in ids
    ensures forall id :: id in r ==> Plain(r[id])
    ensures forall i :: 0 <= i < |ids| && LastBefore(ids, |ids|, i) ==>
              r[ids[i]] == RadialPoint(|ids|, i, radius, rotation, cx, cy, circle)
  {
    RadialPrefixPlain(ids, |ids|, radius, rotation, cx, cy, circle);
    RadialPrefixPlaces(ids, |ids|, radius, rotation, cx, cy, circle);
    RadialPrefix(ids, |ids|, radius, rotation, cx, cy, circle)
  }

  /** A bare position: none of the optional fields is set. */
  predicate Plain(n: TemplateNode) {
    n.visible.None? && n.radiusScale.None? && n.labelText.None? && n.description.None?
  }

  /** The placement of the `i`-th of `n` ids: no optional field is set. */
  function RadialPoint(n: nat, i: nat, radius: real, rotation: real, cx: real, cy: real,
                       circle: real -> (real, real)): (r: TemplateNode)
    requires n > 0
    ensures Plain(r)
    ensures NearestHundredth(cx + circle(rotation + (2.0 / n as real) * i as real).0 * radius, r.x)
    ensures NearestHundredth(cy + circle(rotation + (2.0 / n as real) * i as real).1 * radius, r.y)
  {
    var angle := rotation + (2.0 / n as real) * i as real;
    var point := circle(angle);
    TemplateNode(Round2(cx + point.0 * radius), Round2(cy + point.1 * radius), None, None, None, None)
  }

  /** The record after the `forEach` has handled the first `k` ids. */
  function RadialPrefix(ids: seq<string>, k: nat, radius: real, rotation: real, cx: real, cy: real,
                        circle: real -> (real, real)): (r: map<string, TemplateNode>)
    requires k <= |ids|
    ensures r.Keys == set i | 0 <= i < k :: ids[i]
  {
    if k == 0 then map[]
    else
      assert (set i | 0 <= i < k :: ids[i]) == (set i | 0 <= i < k - 1 :: ids[i]) + {ids[k - 1]};
      RadialPrefix(ids, k - 1, radius, rotation, cx, cy, circle)[
        ids[k - 1] := RadialPoint(|ids|, k - 1, radius, rotation, cx, cy, circle)]
  }

  lemma {:induction false} RadialPrefixPlain(ids: seq<string>, k: nat, radius: real, rotation: real,
                                             cx: real, cy: real, circle: real -> (real, real))
    requires k <= |ids|
    ensures forall id :: id in RadialPrefix(ids, k, radius, rotation, cx, cy, circle) ==>
              Plain(RadialPrefix(ids, k, radius, rotation, cx, cy, circle)[id])
  {
    if k > 0 {
      RadialPrefixPlain(ids, k - 1, radius, rotation, cx, cy, circle);
      var before := RadialPrefix(ids, k - 1, radius, rotation, cx, cy, circle);
      var p := RadialPoint(|ids|, k - 1, radius, rotation, cx, cy, circle);
      var r := RadialPrefix(ids, k, radius, rotation, cx, cy, circle);
      assert r == before[ids[k - 1] := p];
      forall id | id in r
        ensures Plain(r[id])
      {
        if id != ids[k - 1] {
          assert id in before && r[id] == before[id];
          assert Plain(before[id]);
        } else {
          assert r[id] == p;
        }
      }
    }
  }

  /** No id after position `i` and before position `k` repeats `ids[i]`. */
  predicate LastBefore(ids: seq<string>, k: nat, i: nat)
    requires i < k <= |ids|
  {
    forall j :: i < j < k ==> ids[j] != ids[i]
  }

  lemma {:induction false} RadialPrefixPlaces(ids: seq<string>, k: nat, radius: real, rotation: real,
                                              cx: real, cy: real, circle: real -> (real, real))
    requires k <= |ids|
    ensures forall i :: 0 <= i < k && LastBefore(ids, k, i) ==>
              ids[i] in RadialPrefix(ids, k, radius, rotation, cx, cy, circle)
              && RadialPrefix(ids, k, radius, rotation, cx, cy, circle)[ids[i]]
                 == RadialPoint(|ids|, i, radius, rotation, cx, cy, circle)
  {
    if k > 0 {
      RadialPrefixPlaces(ids, k - 1, radius, rotation, cx, cy, circle);
      var before := RadialPrefix(ids, k - 1, radius, rotation, cx, cy, circle);
      var p := RadialPoint(|ids|, k - 1, radius, rotation, cx, cy, circle);
      var r := RadialPrefix(ids, k, radius, rotation, cx, cy, circle);
      assert r == before[ids[k - 1] := p];
      forall i | 0 <= i < k && LastBefore(ids, k, i)
        ensures ids[i] in r && r[ids[i]] == RadialPoint(|ids|, i, radius, rotation, cx, cy, circle)
      {
        if i < k - 1 {
          assert ids[k - 1] != ids[i];
          assert LastBefore(ids, k - 1, i);
        }
      }
    }
  }

  /** A `Partial<TemplateNode>`: every field optional. */
  datatype NodeMeta = NodeMeta(
    x: Option<real>,
    y: Option<real>,
    visible: Option<bool>,
    radiusScale: Option<real>,
    labelText: Option<string>,
    description: Option<string>)

  /** `{ ...base, ...data }`: each field of `data` that is present wins. */
  function Overlay(base: TemplateNode, data: NodeMeta): TemplateNode {
    TemplateNode(
      data.x.GetOr(base.x),
      data.y.GetOr(base.y),
      if data.visible.Some? then data.visible else base.visible,
      if data.radiusScale.Some? then data.radiusScale else base.radiusScale,
      if data.labelText.Some? then data.labelText else base.labelText,
      if data.description.Some? then data.description else base.description)
  }

  /** `mergeNodeMeta`: overlays each metadata entry on the node of the same id, or on a centred
      node when there is none; nodes without metadata are kept as they are. */
  function MergeNodeMeta(nodes: map<string, TemplateNode>, meta: map<string, NodeMeta>): (r: map<string, TemplateNode>)
    ensures r.Keys == nodes.Keys + meta.Keys
    ensures forall id :: id in nodes && id !in meta ==> r[id] == nodes[id]
    ensures forall id :: id in meta ==>
              var base := if id in nodes then nodes[id] else TemplateNode(50.0, 50.0, None, None, None, None);
              && r[id].x == (if meta[id].x.Some? then meta[id].x.value else base.x)
              && r[id].y == (if meta[id].y.Some? then meta[id].y.value else base.y)
              && r[id].labelText == (if meta[id].labelText.Some? then meta[id].labelText else base.labelText)
              && r[id].description == (if meta[id].description.Some? then meta[id].description else base.description)
              && r[id].visible == (if meta[id].visible.Some? then meta[id].visible else base.visible)
              && r[id].radiusScale == (if meta[id].radiusScale.Some? then meta[id].radiusScale else base.radiusScale)
  {
    map id | id in nodes.Keys + meta.Keys ::
      if id in meta then
        Overlay(if id in nodes then nodes[id] else TemplateNode(50.0, 50.0, None, None, None, None), meta[id])
      else nodes[id]
  }

}

=== FILE: sorting.dfy ===
/** `Array.prototype.filter` and a stable `Array.prototype.sort` with a numeric comparator
    `(a, b) => key(a) - key(b)`. Section 23.1.3.30 of ECMA-262 (2023 edition) requires the sort
    to be stable, which is what `Sort` below is: an insertion sort that puts a later element
    after every earlier one with the same key. */
module Sorting {

  /** Ascending by `key`. */
  predicate SortedBy<T>(s: seq<T>, key: T -> int) {
    forall i, j :: 0 <= i < j < |s| ==> key(s[i]) <= key(s[j])
  }

  /** `s.filter(keep)`: the elements satisfying `keep`, in their original order. */
  function Filter<T>(s: seq<T>, keep: T -> bool): (r: seq<T>)
    ensures |r| <= |s|
    ensures forall i :: 0 <= i < |r| ==> r[i] in s && keep(r[i])
    ensures forall i :: 0 <= i < |s| && keep(s[i]) ==> s[i] in r
  {
    if |s| == 0 then []
    else Filter(s[..|s| - 1], keep) + (if keep(s[|s| - 1]) then [s[|s| - 1]] else [])
  }

  /** Filtering distributes over concatenation. */
  lemma {:induction false} FilterConcat<T>(a: seq<T>, b: seq<T>, keep: T -> bool)
    ensures Filter(a + b, keep) == Filter(a, keep) + Filter(b, keep)
  {
    if |b| == 0 {
      assert a + b == a;
    } else {
      assert (a + b)[..|a + b| - 1] == a + b[..|b| - 1];
      FilterConcat(a, b[..|b| - 1], keep);
    }
  }

  /** Filtering a single element keeps it exactly when it passes. With `FilterConcat` and
      `Filter([]) == []` this determines `Filter` completely: the kept elements, each once, in
      their original order. */
  lemma FilterSingle<T>(x: T, keep: T -> bool)
    ensures Filter([x], keep) == if keep(x) then [x] else []
  {
    assert [x][..0] == [];
  }

  /** The test `key(x) == k` as a function value. */
  function KeyIs<T>(key: T -> int, k: int): T -> bool {
    x => key(x) == k
  }

  /** The elements whose key is exactly `k`, in their original order: stability means that
      sorting leaves every such run exactly as it was. This is `Filter` with the test
      `KeyIs(key, k)` (see `WithKeyIsFilter`), written out on its own so that the stability
      proofs, which mention several runs at once, do not carry `Filter`'s quantified membership
      contract for each of them. */
  function WithKey<T>(s: seq<T>, key: T -> int, k: int): (r: seq<T>)
  {
    if |s| == 0 then []
    else WithKey(s[..|s| - 1], key, k) + (if key(s[|s| - 1]) == k then [s[|s| - 1]] else [])
  }

  /** The run of a concatenation is the concatenation of the runs. */
  lemma {:induction false} WithKeyConcat<T>(a: seq<T>, b: seq<T>, key: T -> int, k: int)
    ensures WithKey(a + b, key, k) == WithKey(a, key, k) + WithKey(b, key, k)
  {
    if |b| == 0 {
      assert a + b == a;
    } else {
      assert (a + b)[..|a + b| - 1] == a + b[..|b| - 1];
      WithKeyConcat(a, b[..|b| - 1], key, k);
    }
  }

  /** A single element makes up its own run, or none. */
  lemma WithKeySingle<T>(x: T, key: T -> int, k: int)
    ensures WithKey([x], key, k) == if key(x) == k then [x] else []
  {
    assert [x][..0] == [];
  }

  /** The run of key `k` is the filter on that key. */
  lemma {:induction false} WithKeyIsFilter<T>(s: seq<T>, key: T -> int, k: int)
    ensures WithKey(s, key, k) == Filter(s, KeyIs(key, k))
  {
    if |s| > 0 {
      WithKeyIsFilter(s[..|s| - 1], key, k);
    }
  }

  /** Inserts `x` into the sorted `t` after every element whose key is at most `key(x)`. */
  function Insert<T>(x: T, t: seq<T>, key: T -> int): (r: seq<T>)
    requires SortedBy(t, key)
    ensures |r| == |t| + 1
    ensures r[0] == x || (|t| > 0 && r[0] == t[0] && key(t[0]) <= key(x))
    ensures SortedBy(r, key)
  {
    if |t| == 0 then [x]
    else if key(x) < key(t[0]) then [x] + t
    else
      var rest := Insert(x, t[1..], key);
      assert t == [t[0]] + t[1..];
      assert key(t[0]) <= key(rest[0]);
      [t[0]] + rest
  }

  /** The stable sort: the last element is inserted into the sorted prefix. */
  function Sort<T>(s: seq<T>, key: T -> int): (r: seq<T>)
    ensures |r| == |s|
    ensures SortedBy(r, key)
  {
    if |s| == 0 then []
    else Insert(s[|s| - 1], Sort(s[..|s| - 1], key), key)
  }

  /** Inserting adds exactly the one element. */
  lemma {:induction false} InsertPermutes<T>(x: T, t: seq<T>, key: T -> int)
    requires SortedBy(t, key)
    ensures multiset(Insert(x, t, key)) == multiset(t) + multiset{x}
  {
    if |t| > 0 && key(x) >= key(t[0]) {
      InsertPermutes(x, t[1..], key);
      assert t == [t[0]] + t[1..];
    }
  }

  /** The sort is a permutation of its input. */
  lemma {:induction false} SortPermutes<T>(s: seq<T>, key: T -> int)
    ensures multiset(Sort(s, key)) == multiset(s)
  {
    if |s| > 0 {
      SortPermutes(s[..|s| - 1], key);
      InsertPermutes(s[|s| - 1], Sort(s[..|s| - 1], key), key);
      assert s == s[..|s| - 1] + [s[|s| - 1]];
    }
  }

  lemma {:induction false} NoKeyNoRun<T>(t: seq<T>, key: T -> int, k: int)
    requires forall j :: 0 <= j < |t| ==> key(t[j]) != k
    ensures WithKey(t, key, k) == []
  {
    if |t| > 0 {
      NoKeyNoRun(t[..|t| - 1], key, k);
    }
  }

  /** Inserting `x` appends it to the run of its own key and leaves every other run alone. */
  lemma {:induction false} InsertRuns<T>(x: T, t: seq<T>, key: T -> int, k: int)
    requires SortedBy(t, key)
    ensures WithKey(Insert(x, t, key), key, k) == WithKey(t, key, k) + WithKey([x], key, k)
  {
    WithKeySingle(x, key, k);
    if |t| == 0 {
      assert Insert(x, t, key) == [x];
    } else if key(x) < key(t[0]) {
      assert Insert(x, t, key) == [x] + t;
      WithKeyConcat([x], t, key, k);
      if key(x) == k {
        NoKeyNoRun(t, key, k);
      }
    } else {
      var rest := Insert(x, t[1..], key);
      assert Insert(x, t, key) == [t[0]] + rest;
      assert t == [t[0]] + t[1..];
      InsertRuns(x, t[1..], key, k);
      WithKeyConcat([t[0]], rest, key, k);
      WithKeyConcat([t[0]], t[1..], key, k);
    }
  }

  /** Stability: for every key, the elements carrying it come out in their input order. */
  lemma {:induction false} SortIsStable<T>(s: seq<T>, key: T -> int, k: int)
    ensures WithKey(Sort(s, key), key, k) == WithKey(s, key, k)
  {
    if |s| > 0 {
      var init, last := s[..|s| - 1], s[|s| - 1];
      SortIsStable(init, key, k);
      InsertRuns(last, Sort(init, key), key, k);
      assert s == init + [last];
      WithKeyConcat(init, [last], key, k);
    }
  }

  /** `s[i]` has the least key among the elements satisfying `keep`, and no earlier such element
      has that key: it is the one a stable ascending sort of the kept elements puts first. */
  predicate FirstMinimalAt<T>(s: seq<T>, keep: T -> bool, key: T -> int, i: int) {
    && 0 <= i < |s|
    && keep(s[i])
    && (forall j :: 0 <= j < |s| && keep(s[j]) ==> key(s[i]) <= key(s[j]))
    && (forall j :: 0 <= j < i && keep(s[j]) ==> key(s[i]) < key(s[j]))
  }

  /** Keeps everything: the selection among all elements. */
  predicate All<T>(x: T) { true }

  /** The least key of a sorted permutation is the least key of the input. */
  lemma SortHeadIsLeast<T>(s: seq<T>, key: T -> int)
    requires |s| > 0
    ensures Sort(s, key)[0] in s
    ensures forall j :: 0 <= j < |s| ==> key(Sort(s, key)[0]) <= key(s[j])
  {
    var r := Sort(s, key);
    SortPermutes(s, key);
    assert r[0] in multiset(s);
    forall j | 0 <= j < |s|
      ensures key(r[0]) <= key(s[j])
    {
      assert s[j] in multiset(r);
      var q :| 0 <= q < |r| && r[q] == s[j];
    }
  }

  /** The run of a key starts with the first element carrying that key. */
  lemma RunHead<T>(s: seq<T>, key: T -> int, i: nat)
    requires i < |s| && forall j :: 0 <= j < i ==> key(s[j]) != key(s[i])
    ensures |WithKey(s, key, key(s[i]))| > 0 && WithKey(s, key, key(s[i]))[0] == s[i]
  {
    var k := key(s[i]);
    NoKeyNoRun(s[..i], key, k);
    assert s == s[..i] + [s[i]] + s[i + 1..];
    WithKeyConcat(s[..i] + [s[i]], s[i + 1..], key, k);
    WithKeyConcat(s[..i], [s[i]], key, k);
    WithKeySingle(s[i], key, k);
  }

  /** The position of the first element whose key is `k`, when there is one. */
  lemma FirstWithKey<T>(s: seq<T>, key: T -> int, k: int) returns (i: nat)
    requires exists j :: 0 <= j < |s| && key(s[j]) == k
    ensures i < |s| && key(s[i]) == k
    ensures forall j :: 0 <= j < i ==> key(s[j]) != k
  {
    var found :| 0 <= found < |s| && key(s[found]) == k;
    i := 0;
    while key(s[i]) != k
      invariant 0 <= i <= found
      invariant forall j :: 0 <= j < i ==> key(s[j]) != k
      decreases found - i
    {
      i := i + 1;
    }
  }

  /** The head of the sorted sequence is the first element with the least key. */
  lemma SortHeadIsFirstMinimal<T>(s: seq<T>, key: T -> int)
    requires |s| > 0
    ensures exists i :: FirstMinimalAt(s, All, key, i) && Sort(s, key)[0] == s[i]
  {
    var r := Sort(s, key);
    SortHeadIsLeast(s, key);
    var m := key(r[0]);
    var i := FirstWithKey(s, key, m);
    RunHead(s, key, i);
    RunHead(r, key, 0);
    SortIsStable(s, key, m);
    assert r[0] == s[i];
    assert FirstMinimalAt(s, All, key, i);
  }

  /** Every kept element of `s` appears in the filtered sequence at some position. */
  lemma KeptIsFiltered<T>(s: seq<T>, keep: T -> bool, j: nat)
    requires j < |s| && keep(s[j])
    ensures exists q :: 0 <= q < |Filter(s, keep)| && Filter(s, keep)[q] == s[j]
  {
    assert s[j] in Filter(s, keep);
  }

  /** A first minimal element of the filtered sequence is a first minimal kept element of the
      whole sequence. */
  lemma {:induction false} FilterKeepsFirstMinimal<T>(s: seq<T>, keep: T -> bool, key: T -> int, p: nat)
    requires FirstMinimalAt(Filter(s, keep), All, key, p)
    ensures exists i :: FirstMinimalAt(s, keep, key, i) && s[i] == Filter(s, keep)[p]
    decreases |s|, 1
  {
    var init, last := s[..|s| - 1], s[|s| - 1];
    var f0 := Filter(init, keep);
    var f := Filter(s, keep);
    assert f == f0 + (if keep(last) then [last] else []);
    if !keep(last) || p < |f0| {
      var i := FilterPrefixCase(s, keep, key, p);
    } else {
      FilterLastCase(s, keep, key, p);
    }
  }

  lemma {:induction false} FilterPrefixCase<T>(s: seq<T>, keep: T -> bool, key: T -> int, p: nat) returns (i: nat)
    requires FirstMinimalAt(Filter(s, keep), All, key, p)
    requires !keep(s[|s| - 1]) || p < |Filter(s[..|s| - 1], keep)|
    ensures FirstMinimalAt(s, keep, key, i) && s[i] == Filter(s, keep)[p]
    decreases |s|, 0
  {
    var init, last := s[..|s| - 1], s[|s| - 1];
    var f0 := Filter(init, keep);
    var f := Filter(s, keep);
    assert f == f0 + (if keep(last) then [last] else []);
    assert FirstMinimalAt(f0, All, key, p) by {
      forall j | 0 <= j < |f0|
        ensures f0[j] == f[j]
      {
      }
    }
    FilterKeepsFirstMinimal(init, keep, key, p);
    i :| FirstMinimalAt(init, keep, key, i) && init[i] == f0[p];
    if keep(last) {
      assert f[|f| - 1] == last && All(last);
      assert key(f[p]) <= key(f[|f| - 1]);
    }
    MinimalInPrefix(s, keep, key, i);
  }

  /** The first minimal kept element of all but the last element stays so when the last one, if
      kept, has no smaller key. */
  lemma MinimalInPrefix<T>(s: seq<T>, keep: T -> bool, key: T -> int, i: nat)
    requires |s| > 0 && FirstMinimalAt(s[..|s| - 1], keep, key, i)
    requires keep(s[|s| - 1]) ==> key(s[i]) <= key(s[|s| - 1])
    ensures FirstMinimalAt(s, keep, key, i)
  {
    var init := s[..|s| - 1];
    forall j | 0 <= j < |s| - 1
      ensures s[j] == init[j]
    {
    }
  }

  lemma {:induction false} FilterLastCase<T>(s: seq<T>, keep: T -> bool, key: T -> int, p: nat)
    requires FirstMinimalAt(Filter(s, keep), All, key, p)
    requires keep(s[|s| - 1]) && p == |Filter(s[..|s| - 1], keep)|
    ensures FirstMinimalAt(s, keep, key, |s| - 1) && s[|s| - 1] == Filter(s, keep)[p]
  {
    var init, last := s[..|s| - 1], s[|s| - 1];
    var f0 := Filter(init, keep);
    var f := Filter(s, keep);
    assert f == f0 + [last];
    forall j | 0 <= j < |s| - 1 && keep(s[j])
      ensures key(last) < key(s[j])
    {
      assert s[j] == init[j];
      KeptIsFiltered(init, keep, j);
      var q :| 0 <= q < |f0| && f0[q] == s[j];
      assert f[q] == s[j];
    }
  }

  /** The first element of a filtered sequence is the first kept element of the input. */
  lemma {:induction false} FilterHead<T>(s: seq<T>, keep: T -> bool) returns (i: nat)
    requires |Filter(s, keep)| > 0
    ensures i < |s| && keep(s[i]) && Filter(s, keep)[0] == s[i]
    ensures forall j :: 0 <= j < i ==> !keep(s[j])
  {
    var init, last := s[..|s| - 1], s[|s| - 1];
    var f0 := Filter(init, keep);
    assert Filter(s, keep) == f0 + (if keep(last) then [last] else []);
    if |f0| > 0 {
      i := FilterHead(init, keep);
      assert Filter(s, keep)[0] == f0[0];
      forall j | 0 <= j < i
        ensures !keep(s[j])
      {
        assert s[j] == init[j];
      }
    } else {
      i := |s| - 1;
      forall j | 0 <= j < i
        ensures !keep(s[j])
      {
        assert s[j] == init[j];
      }
    }
  }

  /** Filtering with a condition every element meets changes nothing. */
  lemma {:induction false} FilterAllKept<T>(s: seq<T>, keep: T -> bool)
    requires forall i :: 0 <= i < |s| ==> keep(s[i])
    ensures Filter(s, keep) == s
  {
    if |s| > 0 {
      FilterAllKept(s[..|s| - 1], keep);
      assert s == s[..|s| - 1] + [s[|s| - 1]];
    }
  }
}

=== FILE: text.dfy ===
/** The few string operations of the JavaScript runtime that the graph component relies on. */
module Text {

  /** `String.prototype.toUpperCase` on one character: ASCII `a`..`z` map to `A`..`Z`. */
  function UpperChar(c: char): (r: char)
    ensures 'a' <= c <= 'z' ==> 'A' <= r <= 'Z' && r as int - c as int == 'A' as int - 'a' as int
    ensures !('a' <= c <= 'z') ==> r == c
  {
    if 'a' <= c <= 'z' then (c as int - 32) as char else c
  }

  /** `String.prototype.toUpperCase`, character by character. */
  function ToUpper(s: string): (r: string)
    ensures |r| == |s|
    ensures forall i :: 0 <= i < |s| ==> r[i] == UpperChar(s[i])
  {
    if |s| == 0 then [] else [UpperChar(s[0])] + ToUpper(s[1..])
  }

  /** Upper-casing twice is upper-casing once. */
  lemma ToUpperIdempotent(s: string)
    ensures ToUpper(ToUpper(s)) == ToUpper(s)
  {
    var u := ToUpper(s);
    assert forall i :: 0 <= i < |u| ==> ToUpper(u)[i] == u[i];
  }

  /** Position of the first `c` in `s`, or `|s|` when there is none (`indexOf` without the -1). */
  function IndexOf(s: string, c: char): (r: nat)
    ensures r <= |s|
    ensures r < |s| ==> s[r] == c
    ensures forall j :: 0 <= j < r ==> s[j] != c
    ensures r == |s| <==> c !in s
  {
    if |s| == 0 then 0 else if s[0] == c then 0 else 1 + IndexOf(s[1..], c)
  }

  /** `s.replace(pat, rep)` with a one-character string pattern: only the FIRST occurrence
      of `pat` is replaced (a string pattern is not global in JavaScript). */
  function ReplaceFirst(s: string, pat: char, rep: char): (r: string)
    ensures |r| == |s|
    ensures pat !in s ==> r == s
    ensures pat in s ==> r == s[..IndexOf(s, pat)] + [rep] + s[IndexOf(s, pat) + 1..]
  {
    if |s| == 0 then s
    else if s[0] == pat then [rep] + s[1..]
    else
      var t := ReplaceFirst(s[1..], pat, rep);
      assert s[1..][..IndexOf(s[1..], pat)] == s[1..IndexOf(s, pat)];
      [s[0]] + t
  }

  /** Only the first occurrence is replaced: after the replaced position the string is untouched,
      so a name with two hyphens keeps its second one. */
  lemma {:induction false} ReplaceFirstKeepsLaterHyphens(s: string, pat: char, rep: char, i: nat, j: nat)
    requires i < j < |s| && s[i] == pat && s[j] == pat
    ensures ReplaceFirst(s, pat, rep)[j] == pat
  {
    if s[0] == pat {
    } else {
      assert s[1..][i - 1] == pat;
      ReplaceFirstKeepsLaterHyphens(s[1..], pat, rep, i - 1, j - 1);
    }
  }

  /** WhiteSpace and LineTerminator code points of ECMA-262 (section 12.2 and 12.3), which
      `String.prototype.trim` removes: TAB, LF, VT, FF, CR, SPACE, NBSP, ZWNBSP, LS, PS
      and the other space separators of Unicode category Zs. */
  predicate IsTrimmable(c: char) {
    var n := c as int;
    n == 0x09 || n == 0x0A || n == 0x0B || n == 0x0C || n == 0x0D || n == 0x20
    || n == 0xA0 || n == 0x1680 || (0x2000 <= n <= 0x200A) || n == 0x2028 || n == 0x2029
    || n == 0x202F || n == 0x205F || n == 0x3000 || n == 0xFEFF
  }

  function TrimStart(s: string): (r: string)
    ensures |r| <= |s| && r == s[|s| - |r|..]
    ensures |r| > 0 ==> !IsTrimmable(r[0])
    ensures forall i :: 0 <= i < |s| - |r| ==> IsTrimmable(s[i])
  {
    if |s| > 0 && IsTrimmable(s[0]) then TrimStart(s[1..]) else s
  }

  function TrimEnd(s: string): (r: string)
    ensures |r| <= |s| && r == s[..|r|]
    ensures |r| > 0 ==> !IsTrimmable(r[|r| - 1])
    ensures forall i :: |r| <= i < |s| ==> IsTrimmable(s[i])
  {
    if |s| > 0 && IsTrimmable(s[|s| - 1]) then TrimEnd(s[..|s| - 1]) else s
  }

  /** `r` is the slice of `s` starting at `a` once the blanks around it are removed: everything
      before and after the slice is trimmable, and the slice neither starts nor ends with a
      trimmable character. */
  predicate IsTrimOf(s: string, a: nat, r: string) {
    && a + |r| <= |s|
    && r == s[a..a + |r|]
    && (forall i :: 0 <= i < a ==> IsTrimmable(s[i]))
    && (forall i :: a + |r| <= i < |s| ==> IsTrimmable(s[i]))
    && (|r| > 0 ==> !IsTrimmable(r[0]) && !IsTrimmable(r[|r| - 1]))
  }

  /** The number of leading trimmable characters. */
  function LeadingBlanks(s: string): (n: nat)
    ensures n <= |s|
  {
    |s| - |TrimStart(s)|
  }

  /** `String.prototype.trim`: the slice of `s` left once the trimmable characters at either end
      are removed; it is empty exactly when every character is trimmable. */
  function Trim(s: string): (r: string)
    ensures IsTrimOf(s, LeadingBlanks(s), r)
    ensures r == [] <==> forall i :: 0 <= i < |s| ==> IsTrimmable(s[i])
  {
    TrimIsSlice(s);
    TrimEnd(TrimStart(s))
  }

  /** Trimming the front and then the back cuts a slice framed by trimmable characters. */
  lemma TrimIsSlice(s: string)
    ensures IsTrimOf(s, LeadingBlanks(s), TrimEnd(TrimStart(s)))
  {
    var a := TrimStart(s);
    assert a == s[LeadingBlanks(s)..];
    BlankFramedSlice(s, LeadingBlanks(s), a, TrimEnd(a));
  }

  /** Trimming the front to the suffix `a` and then the back to the prefix `t` of `a` leaves `t`
      as a slice of `s` framed by trimmable characters. */
  lemma BlankFramedSlice(s: string, n: nat, a: string, t: string)
    requires n <= |s| && a == s[n..] && |t| <= |a| && t == a[..|t|]
    requires forall i :: 0 <= i < n ==> IsTrimmable(s[i])
    requires forall i :: |t| <= i < |a| ==> IsTrimmable(a[i])
    requires |a| > 0 ==> !IsTrimmable(a[0])
    requires |t| > 0 ==> !IsTrimmable(t[|t| - 1])
    ensures IsTrimOf(s, n, t)
  {
    assert t == s[n..n + |t|];
    forall i | n + |t| <= i < |s|
      ensures IsTrimmable(s[i])
    {
      assert s[i] == a[i - n];
    }
  }

  /** Two trimmings of the same string with a non-empty result agree: the trimmed text is
      determined by the string alone. */
  lemma {:induction false} TrimOfUnique(s: string, a: nat, r: string, b: nat, t: string)
    requires IsTrimOf(s, a, r) && IsTrimOf(s, b, t) && |r| > 0 && |t| > 0
    ensures a == b && r == t
  {
    assert s[a] == r[0] && s[b] == t[0];
    assert s[a + |r| - 1] == r[|r| - 1] && s[b + |t| - 1] == t[|t| - 1];
  }

  /** The character of a decimal digit `d`. */
  function DigitChar(d: nat): (r: char)
    requires d < 10
    ensures '0' <= r <= '9' && r as int - '0' as int == d
  {
    ('0' as int + d) as char
  }

  /** The number a string of decimal digits denotes, the last digit least significant. */
  function DigitsValue(s: string): int
  {
    if |s| == 0 then 0 else DigitsValue(s[..|s| - 1]) * 10 + (s[|s| - 1] as int - '0' as int)
  }

  /** The decimal numeral of `n`, as a template literal prints an array index: digits only,
      denoting `n`, with no leading zero. */
  function NatToString(n: nat): (r: string)
    ensures 1 <= |r|
    ensures forall i :: 0 <= i < |r| ==> '0' <= r[i] <= '9'
    ensures DigitsValue(r) == n
    ensures |r| > 1 ==> r[0] != '0'
    ensures |r| == 1 <==> n < 10
    ensures r[|r| - 1] == DigitChar(n % 10)
  {
    if n < 10 then [DigitChar(n)]
    else
      var p := NatToString(n / 10);
      assert (p + [DigitChar(n % 10)])[..|p|] == p;
      p + [DigitChar(n % 10)]
  }
}

=== FILE: updates.dfy ===
/** The list of project updates shown newest first (landing/src/lib/updates.ts). The entries
    come from a JSON file; their ISO dates are abstracted to the integer timestamps that
    `new Date(date).getTime()` yields. */
module Updates {
  import opened Options
  import opened Sorting

  /** One inline span of an update's summary. */
  datatype SummaryNode =
    | TextSpan(text: string)
    | Link(text: string, href: string, isExternal: Option<bool>)

  datatype ProjectUpdate = ProjectUpdate(
    id: string,
    date: int,
    displayDate: string,
    title: string,
    summary: seq<SummaryNode>)

  /** The comparator `(a, b) => date(b) - date(a)` orders ascending by the negated date. */
  function NewestFirst(u: ProjectUpdate): int {
    -u.date
  }

  /** The entries dated `d`, in the order of `s`. */
  function OnDate(s: seq<ProjectUpdate>, d: int): seq<ProjectUpdate> {
    WithKey(s, NewestFirst, -d)
  }

  /** `getProjectUpdates()`: a sorted copy of the data, computed once at module load, so every
      call returns the same sequence. The input itself is a value and is never reordered. */
  function ProjectUpdates(updates: seq<ProjectUpdate>): (r: seq<ProjectUpdate>)
    ensures multiset(r) == multiset(updates)
    ensures forall i, j :: 0 <= i < j < |r| ==> r[i].date >= r[j].date
  {
    SortPermutes(updates, NewestFirst);
    Sort(updates, NewestFirst)
  }

  /** Entries that share a date keep their relative input order. */
  lemma ProjectUpdatesKeepTies(updates: seq<ProjectUpdate>, d: int)
    ensures OnDate(ProjectUpdates(updates), d) == OnDate(updates, d)
  {
    StableOnKey(updates, -d);
  }

  lemma StableOnKey(updates: seq<ProjectUpdate>, k: int)
    ensures WithKey(Sort(updates, NewestFirst), NewestFirst, k) == WithKey(updates, NewestFirst, k)
  {
    SortIsStable(updates, NewestFirst, k);
  }

  /** `updates[i]` is dated no earlier than any entry, and every earlier entry is strictly older. */
  predicate IsLatestAt(updates: seq<ProjectUpdate>, i: int) {
    && 0 <= i < |updates|
    && (forall j :: 0 <= j < |updates| ==> updates[j].date <= updates[i].date)
    && (forall j :: 0 <= j < i ==> updates[j].date < updates[i].date)
  }

  lemma LatestIsFirstNewest(updates: seq<ProjectUpdate>)
    requires |updates| > 0
    ensures exists i :: IsLatestAt(updates, i) && ProjectUpdates(updates)[0] == updates[i]
  {
    SortHeadIsFirstMinimal(updates, NewestFirst);
    var i :| FirstMinimalAt(updates, All, NewestFirst, i) && Sort(updates, NewestFirst)[0] == updates[i];
    assert IsLatestAt(updates, i);
  }

  /** `getLatestProjectUpdate()`: the head of the sorted list, `undefined` when there is none. */
  function LatestProjectUpdate(updates: seq<ProjectUpdate>): (r: Option<ProjectUpdate>)
    ensures r.None? <==> |updates| == 0
    ensures r.Some? ==> exists i :: IsLatestAt(updates, i) && r.value == updates[i]
  {
    if |updates| == 0 then None
    else
      LatestIsFirstNewest(updates);
      Some(ProjectUpdates(updates)[0])
  }
}
